=== FILE: README.md ===
# ComparteRide core, modelled in Dafny

ComparteRide (`cride`) is a Django REST API for sharing rides within private
groups called *circles*. This project models the request logic at its centre:

- the membership views of a circle: permissions per action, the active-member
  list and lookup, soft removal, and the invitations breakdown that tops a
  member's unused invitation codes up to their `remaining_invitations`;
- how an invitation row gets its code, as the invitation tests pin it down;
- the create-ride serializer: seat bounds, the departure lead time, the
  identity, membership and date checks, and the three `rides_offered` counters
  that a successful offer bumps;
- the circle model's defaults and ordering, the circle serializer's validation,
  and the circle views (the public-only list, permissions, lookup by slug, and
  creation, which makes the creator an admin);
- the `IsCircleAdmin` and `IsRideOwner` permission classes;
- the user views: the permission map, the active-client lookup, the `profile`
  action's partial flag, and the circles that `retrieve` adds.

The database is an immutable `Store` of tables (`store.dfy`). Users, profiles,
circles and rides sit at the index equal to their primary key. Memberships and
invitations are kept in insertion order. `Store.Valid` collects the invariants
that every request finds and leaves behind:

- keys match indices;
- every user has exactly one profile, at the same index;
- usernames, slugs and invitation codes are unique;
- references point at existing rows;
- a user has at most one active membership per circle.

Every view is a pure function of a store and a request. What it returns
depends on the view:

- querysets (the member list, the circle list, the active clients) return a
  `seq` of rows;
- lookups (`get_object` by username or slug, the user lookup) return an
  `Option` of a row index, `None` being the not-found case;
- the invitations breakdown, ride creation and circle creation return a
  `Result<Reply<T>, Error>`, where `Reply<T>` holds the store the request
  leaves and the data it responds with;
- `destroy` returns a `Result` holding only the store it leaves;
- the user `retrieve` returns a `Result` holding a `UserDetail` and leaves
  the store alone;
- `profile` returns a `Result` holding a `ProfileEdit`: whose profile is
  edited, and whether partially.

Some inputs that the code takes from outside become explicit parameters:

- the clock is `now`, a time in seconds;
- the random code generator is `draws`, the sequence of codes it would produce;
- the HTTP method of a `profile` request is `httpMethod`.

Files, one module each:

- `wrappers.dfy`: `Option` and `Result`;
- `seqs.dfy`: `Filter` and `Find` on sequences;
- `store.dfy`: the tables and `Valid`;
- `permissions.dfy`: the names of the permission classes;
- `invitation_manager.dfy`: code issuance;
- `memberships.dfy`: the membership views;
- `rides.dfy`: the create-ride serializer;
- `circle_permissions.dfy` and `ride_permissions.dfy`: the two permission classes;
- `circles.dfy`: the circle model, serializer and views;
- `users.dfy`: the user views.

Two behaviours of the code that a reader of the docstrings and field names might not expect, and that the model follows:

- **Ride offer checks run field checks first.** The serializer validates
  `available_seats` and `departure_date` (every failing field, reported
  together) before `validate` runs. So a too-early departure is reported ahead
  of the identity, membership and arrival checks. After the field checks,
  `validate` stops at its first failure, in the order identity, membership,
  then arrival after departure.
- **A second `destroy` of the same member is not a no-op.** `get_object` only
  sees active memberships, so once a member has been removed, removing them
  again is a not-found error.

## Model

| member | source | states |
|---|---|---|
| MembershipViews.ActionPermissions | cride/circles/views/membership.py:39-46 | Every action needs IsAuthenticated then IsActiveCircleMember; IsAdminOrMembershipOwner is added exactly for `destroy`, IsSelfMember exactly for `invitations`, and nothing else is ever required |
| MembershipViews.Members | cride/circles/views/membership.py:48-53 | The member list holds only active memberships of this circle, every such row appears in it, and it has one entry per such row |
| MembershipViews.NamedMemberUnique | cride/circles/views/membership.py:55-62 | In a valid store at most one row is the active membership of a given username in a circle, so the lookup cannot be ambiguous |
| MembershipViews.GetMember | cride/circles/views/membership.py:55-62 | Lookup by username finds that user's active row in this circle, the only one; it finds nothing exactly when no such row exists, so a deactivated or foreign member is not found |
| MembershipViews.Deactivate | cride/circles/views/membership.py:64-67 | Removal sets `is_active` to false on that row only: no row is removed, no other field or row and no other table changes, and the store stays valid |
| MembershipViews.Destroy | cride/circles/views/membership.py:55-67 | `destroy` is a not-found error exactly when the username has no active membership in the circle; otherwise it deactivates exactly that row and keeps the store valid |
| MembershipViews.DestroyTwiceNotFound | cride/circles/views/membership.py:55-67 | Removing a member a second time is a not-found error |
| MembershipViews.UnusedCodes | cride/circles/views/membership.py:83-87 | Every unused invitation the caller issued in the circle contributes its code, and every listed code is the code of such an invitation: no used code and no other issuer's or circle's code is listed |
| MembershipViews.UnusedCodesDistinct | cride/circles/views/membership.py:83-87 | When the table's codes are unique, the unused-code list names no code twice |
| MembershipViews.UnusedCodesAppend | cride/circles/views/membership.py:83-87 | Appending rows to the invitations table appends their unused codes to the unused list, after the old ones |
| MembershipViews.InvitedMembers | cride/circles/views/membership.py:77-81 | `used_invitations` holds exactly the active memberships of this circle whose `invited_by` is the caller |
| MembershipViews.TopUp | cride/circles/views/membership.py:83-97 | The top-up mints `max(0, remaining - unused)` codes, appends them as the caller's rows, and afterwards the caller holds at least `remaining` unused codes; with enough unused codes already it mints nothing and draws nothing |
| MembershipViews.Invitations | cride/circles/views/membership.py:69-104 | Unknown or inactive member means not-found; otherwise only the invitations table changes, and only by appended rows; the response codes are the caller's unused codes afterwards, and `used_invitations` is the invited active members |
| MembershipViews.InvitationsMintsShortfall | cride/circles/views/membership.py:83-97 | Exactly `max(0, remaining - unused)` rows are added; the response lists the old unused codes first and `max(remaining, unused)` codes in all |
| MembershipViews.InvitationsNewRows | cride/circles/views/membership.py:90-97 | Every appended row is an unused invitation of the caller in this circle, with a CODE_LENGTH code new to the table, and that code is in the response |
| MembershipViews.InvitationsKeepsValid | cride/circles/views/membership.py:90-97 | A breakdown by an existing user in an existing circle keeps the store valid, unique codes included |
| MembershipViews.InvitationsIdempotent | cride/circles/views/membership.py:88-97 | A second breakdown right after a successful one mints nothing, whatever the generator would draw, and returns the same codes and members |
| MembershipViews.InvitationsFirstCall | cride/circles/tests/test_invitations.py:123-136 | When the caller has issued nothing yet and the draws are fresh and distinct, the breakdown appends exactly `remaining_invitations` rows, and the response lists exactly their codes |
| MembershipViews.InvitationsFirstCallCount | cride/circles/tests/test_invitations.py:123-134 | After that first breakdown the caller has issued exactly `remaining_invitations` invitations, namely the appended rows |
| InvitationManager.Generate | cride/circles/tests/test_invitations.py:39-49 | The generator keeps drawing until a code is not taken: it yields the first untaken draw, and fails only when every draw is taken |
| InvitationManager.Issue | cride/circles/tests/test_invitations.py:39-74 | `create` appends one unused row whose code was in no row before |
| InvitationManager.IssueGeneratesCode | cride/circles/tests/test_invitations.py:39-49 | Without a supplied code the new row's code is a generated one of length CODE_LENGTH |
| InvitationManager.IssueKeepsUnusedCode | cride/circles/tests/test_invitations.py:51-59 | A supplied code that no row has yet is used verbatim, whatever its length |
| InvitationManager.IssueReplacesTakenCode | cride/circles/tests/test_invitations.py:61-74 | A supplied code that is already taken is replaced by a different, generated code of length CODE_LENGTH |
| InvitationManager.IssueFailsOnlyWhenExhausted | cride/circles/tests/test_invitations.py:39-74 | Issuing fails exactly when no supplied unused code exists and every draw is already taken |
| InvitationManager.IssueKeepsCodesUnique | cride/circles/tests/test_invitations.py:61-74 | `create` adds exactly its code to the code column, so unique codes stay unique |
| InvitationManager.Mint | cride/circles/views/membership.py:91-97 | Minting `n` codes yields `n` codes and appends one unused row per code, in order, to the table; minting none changes nothing and draws nothing |
| InvitationManager.MintIsRepeatedIssue | cride/circles/views/membership.py:91-97 | Minting `n` codes is one `create` call followed by minting `n - 1` codes on the enlarged table, so it is `n` consecutive `create` calls |
| InvitationManager.IssueSkipsTakenDraw | cride/circles/tests/test_invitations.py:39-74 | A draw that is already taken is passed over: `create` behaves as if the generator had started at the next draw |
| InvitationManager.MintFresh | cride/circles/views/membership.py:91-97 | Every minted code has length CODE_LENGTH, is new to the table, and differs from the other codes minted with it |
| InvitationManager.MintKeepsCodesUnique | cride/circles/views/membership.py:91-97 | Minting keeps the invitation code column unique |
| InvitationManager.MintTakesFreshDraws | cride/circles/tests/test_invitations.py:123-136 | With distinct draws that are not yet stored, minting `n` codes succeeds and takes exactly the first `n` draws, in order |
| RideSerializer.ActiveMembership | cride/rides/serializers/ride.py:47-55 | The membership lookup finds the one active row of the user in the circle, and finds nothing exactly when there is none |
| RideSerializer.ValidateOffer | cride/rides/serializers/ride.py:20-63 | A validated offer yields an active membership of `offered_by` in the circle; a field error names at least one failing field |
| RideSerializer.CreateRide | cride/rides/serializers/ride.py:65-84 | `create` appends the new ride to the rides table and to nothing else in it |
| RideSerializer.Offer | cride/rides/serializers/ride.py:37-84 | A successful offer stores one ride under the next id, offered in the context circle by the requester |
| RideSerializer.OfferSucceedsIff | cride/rides/serializers/ride.py:20-60 | An offer succeeds exactly when seats are in [1, 15], departure is at least 10 minutes after now, `offered_by` is the requester with an active membership in the circle, and arrival is after departure |
| RideSerializer.OfferFirstFailure | cride/rides/serializers/ride.py:20-60 | The error reported is the first failing check: every bad field together, then identity, then membership, then arrival not after departure (equal times fail, a departure exactly at the boundary passes) |
| RideSerializer.HiddenOfferedByNeverOnBehalf | cride/rides/serializers/ride.py:18-45 | Through the serializer, with `offered_by` hidden, the on-behalf-of-others error can never be raised |
| RideSerializer.OfferBumpsOfferedCounters | cride/rides/serializers/ride.py:65-84 | A successful offer adds exactly one `rides_offered` to the circle, to the offering membership and to the profile, and changes no other field (`rides_taken` included), row or table |
| RideSerializer.OfferStoresDraft | cride/rides/serializers/ride.py:65-68 | The stored ride carries the draft's fields, lives in the context circle, is active with no passengers, and meets the seat, lead-time and arrival bounds |
| RideSerializer.OfferKeepsValid | cride/rides/serializers/ride.py:65-84 | An offer keeps the store valid |
| CirclePermissions.IsCircleAdmin | cride/permissions/circles.py:12-23 | Granted exactly when a membership exists of the requester in this circle that is both admin and active; admin rows in other circles do not count |
| CirclePermissions.ActiveRowDecides | cride/permissions/circles.py:14-22 | In a valid store the requester's active row in the circle decides: the permission equals its admin flag, so an active non-admin is denied |
| CirclePermissions.NoActiveRowDenied | cride/permissions/circles.py:14-22 | Without an active membership in the circle, an inactive admin row included, the requester is denied |
| CirclePermissions.SelfRemovalRevokesAdmin | cride/permissions/circles.py:14-22 | An admin whose membership is removed loses the permission |
| RidePermissions.OwnerDependsOnlyOnOfferedBy | cride/rides/permissions/ride.py:11 | Two rides with the same `offered_by` get the same decision, whatever their other fields |
| RidePermissions.OffererOwnsOfferedRide | cride/rides/permissions/ride.py:9-11 | The user who offered a ride owns it, and nobody else does |
| Circles.ModelDefaults | cride/circles/models/circles.py:16-19 | A default circle carries the given id, name, slug and description |
| Circles.ModelDefaultsBreakLimitRule | cride/circles/models/circles.py:27-49 | The model defaults are no rides offered or taken, unverified, public, limited with a limit of 0, and so they break the limited-iff-limit rule |
| Circles.Insert | cride/circles/models/circles.py:57 | Inserting a circle into a list ordered by rides taken, then rides offered, both descending, keeps it ordered and adds exactly that circle |
| Circles.SortCircles | cride/circles/models/circles.py:57 | The sorted list is ordered by rides taken, then rides offered, both descending, and is a permutation of the input |
| Circles.SortOrderedUnchanged | cride/circles/models/circles.py:57 | Sorting an already ordered list leaves it unchanged, so sorting is idempotent |
| Circles.TextErrors | cride/circles/models/circles.py:16-19 | A required text field is error-free exactly when present, non-blank and within its maximum length (140 for the name, 255 for the description) |
| Circles.SlugErrors | cride/circles/models/circles.py:17 | The slug is error-free exactly when present, non-blank, at most 40 characters, made of slug characters and used by no other circle |
| Circles.LimitErrors | cride/circles/serializers/circles.py:12-16 | An absent `members_limit` is fine; a present one must lie in [10, 32000], so it is never 0 |
| Circles.FieldErrorsOf | cride/circles/serializers/circles.py:12-35 | A request has no field errors exactly when each writable field passes its own checks |
| Circles.ValidateInput | cride/circles/serializers/circles.py:12-44 | Field errors are reported all together, before `validate`; a valid request passes name, slug, description, `is_limited` (false when left out) and `members_limit` through unchanged |
| Circles.ValidateInputIff | cride/circles/serializers/circles.py:12-44 | Validation accepts a request exactly when every field is valid and `is_limited`, defaulting to false, matches whether a limit is given |
| Circles.LimitMismatchCases | cride/circles/serializers/circles.py:37-44 | With valid fields, `is_limited` true without a limit is refused, and a limit with `is_limited` false or absent is refused |
| Circles.ReadOnlyFieldsIgnored | cride/circles/serializers/circles.py:30-35 | The values sent for `is_public`, `verified`, `rides_taken` and `rides_offered` have no effect on validation |
| Circles.Queryset | cride/circles/views/circles.py:27-32 | `list` sees only the public circles, each as often as stored; every other action sees all circles; both in model order |
| Circles.ListIsPublicCircles | cride/circles/views/circles.py:29-31 | A stored circle is in the list exactly when it is public |
| Circles.ActionPermissions | cride/circles/views/circles.py:34-39 | Every action needs IsAuthenticated; IsCircleAdmin is added exactly for `update` and `partial_update` |
| Circles.AuthorizedIff | cride/circles/views/circles.py:34-39 | Only active admins of the circle may update it; any authenticated user may read it |
| Circles.CircleBySlug | cride/circles/views/circles.py:25 | Lookup by `slug_name` finds the circle with that slug, and finds nothing exactly when no circle has it |
| Circles.PrivateCircleRetrievable | cride/circles/views/circles.py:27-32 | A private circle is left out of the list, yet is visible to `retrieve` and found by its slug |
| Circles.CreateCircle | cride/circles/views/circles.py:41-53 | Creation fails exactly when validation does; otherwise it appends the circle and exactly one membership (creator, new circle, active admin, 10 invitations) and changes nothing else |
| Circles.CreatedCircleFields | cride/circles/models/circles.py:16-49 | The created circle has the next id, the requested name, slug, description, `is_limited` and `members_limit` (0 when none was sent), the model defaults for every read-only field whatever was sent, and a limit that agrees with `is_limited` |
| Circles.CreatorIsSoleAdmin | cride/circles/views/circles.py:47-53 | The creator is an admin of the new circle and nobody else is |
| Circles.CreateCircleKeepsValid | cride/circles/views/circles.py:41-53 | Creating a circle by an existing user keeps the store valid |
| UserViews.ActionPermissions | cride/users/views/users.py:40-48 | `login`, `signup` and `verify` need only AllowAny; `retrieve`, `update` and `partial_update` need IsAuthenticated and IsAccountOwner; every other action needs only IsAuthenticated |
| UserViews.ProfileLacksOwnerCheck | cride/users/views/users.py:40-48 | As written, `profile` edits one user's account data yet needs only IsAuthenticated |
| UserViews.ActionPermissionsCorrected | cride/users/views/users.py:40-48 | The permission map with `profile` among the owner-guarded actions |
| UserViews.OwnerGuardsAccountActions | cride/users/views/users.py:40-48 | With the correction, IsAccountOwner is required exactly for the actions on one account's data, and every other action keeps its permissions |
| UserViews.ActiveClients | cride/users/views/users.py:36 | The queryset holds exactly the active client users |
| UserViews.GetUser | cride/users/views/users.py:36-38 | Lookup by username finds only an active client with that name, and nothing exactly when there is none |
| UserViews.GetUserIsTheNamedUser | cride/users/views/users.py:36-38 | Since usernames are unique, looking up a user's name finds that user if it is an active client, and nothing otherwise |
| UserViews.ProfileRequest | cride/users/views/users.py:84-98 | Methods other than PUT and PATCH are refused; otherwise the named active client's profile is updated, partially exactly for PATCH, and an unknown user is not-found |
| UserViews.RetrieveCirclesAsWritten | cride/users/views/users.py:103-106 | As written, an active requester gets the circle of every membership row they have, inactive rows included; an inactive requester gets none |
| UserViews.AsWrittenListsLeftCircle | cride/users/views/users.py:103-106 | A user whose only membership is deactivated still gets that circle listed, and `retrieve` returns it, while the corrected version returns no circle |
| UserViews.AsWrittenRepeatsRejoinedCircle | cride/users/views/users.py:103-106 | A user who left a circle and rejoined it gets that circle listed twice |
| UserViews.RetrieveCircles | cride/users/views/users.py:103-106 | The circles listed are, in model order, the circles of the requester's active memberships |
| UserViews.ListedCountIsActiveCount | cride/users/views/users.py:103-106 | A circle occurs among the circles of a user's active rows once per active row of that user in it |
| UserViews.ActiveCountAtMostOne | cride/users/views/users.py:103-106 | With at most one active row of a user in a circle, that user has at most one such row, and none exactly when no row matches |
| UserViews.ActiveCircleCount | cride/users/views/users.py:103-106 | A circle appears among the circles of a user's active rows exactly when such a row exists, and at most once |
| UserViews.RetrieveCirclesExact | cride/users/views/users.py:103-106 | A circle is listed exactly when the requester is an active member of it, and then exactly once |
| UserViews.CorrectedListsRejoinedCircleOnce | cride/users/views/users.py:103-106 | The corrected list shows a left-and-rejoined circle once |
| UserViews.Retrieve | cride/users/views/users.py:100-112 | `retrieve` as written is not-found exactly when the name is not an active client; otherwise it returns that user with every circle the requester has a membership row in, per row, when the requester's account is active |
| UserViews.RetrieveCorrected | cride/users/views/users.py:100-112 | `retrieve` as intended: the same lookup and errors, with the circles where the requester's membership is active |
| UserViews.RetrieveVersionsAgreeOnUser | cride/users/views/users.py:100-112 | Both versions succeed for the same names and return the same user; the corrected one lists a circle exactly when the requester is an active member of it, and at most once |

## Left out

- The invitation manager's own source is not part of this model. Code issuance follows its tests. The generator is the input `draws`. CODE_LENGTH is a named constant, set to 10, and no property depends on its value.
- InvitationManager.Issue: when the draws run out, the model reports `CodesExhausted`, while the manager keeps drawing. The tests assume a fresh code always arrives eventually. The lemmas that need success therefore assume fresh, distinct draws.
- Query order: memberships, invitations and users come back in the store's row order, oldest first. The Invitation, Membership and User models are not part of this model. The shown base model points the other way: it declares `ordering = ['-created', '-modified']` (cride/utils/models.py:31), newest first, for every subclass that inherits its options. Its `Meta` also spells `abstract` as `asbtract` (cride/utils/models.py:29). Django rejects an unknown `Meta` attribute when the class is defined, so the base model as written does not load at all. The model assumes `abstract` was meant. Even so, which order a subclass gets depends on whether it inherits the base `Meta`, and the subclasses are not shown.
- MembershipViews.Invitations: the response lists the unused codes oldest first, then the new codes in creation order. Under the base model's newest-first ordering, the unused codes would come back newest first instead. The set of codes listed, and every count, does not depend on the order.
- MembershipViews.InvitationsIdempotent: that the second reply equals the first as a list relies on the oldest-first order. Under newest-first ordering a second call would list the same codes in reverse order. That it mints nothing, and lists the same set of codes, holds either way.
- MembershipViews.UnusedCodesAppend: "after the old ones" is the oldest-first order; under newest-first ordering the appended codes would come first.
- `Memberships` is assumed to name the Membership model. cride/circles/views/circles.py:14 and cride/permissions/circles.py:7 import `Memberships` from `cride.circles.models`, while every other file imports `Membership`. The models package's `__init__` is not part of this model. If it does not export the plural name, both modules fail at import, and neither circle creation (`Circles.CreateCircle`) nor `CirclePermissions.IsCircleAdmin` ever runs.
- The permission classes IsActiveCircleMember, IsAdminOrMembershipOwner, IsSelfMember and IsAccountOwner are not part of this model. They appear only by name in the action maps.
- The Ride, Membership and Invitation models are not part of this model. A created ride is assumed to be active with no passengers. A created membership is assumed active, uninvited, with zero counters. A newly issued invitation is assumed unused (`used=False`). `MembershipViews.InvitationsIdempotent` and the top-up counts rely on that default.
- RideSerializer.Offer: the store invariant gives every user a profile, so an offer always completes. No shown file guarantees one: profiles are created explicitly (cride/circles/tests/test_invitations.py:90). For a requester without a profile, cride/rides/serializers/ride.py:79 raises after the ride (line 67), the circle counter (line 71) and the membership counter (line 76) are already saved, and no transaction undoes them. That partial write is not modelled.
- Circles.CreateCircle: likewise, for a requester without a profile, cride/circles/views/circles.py:45 raises after `serializer.save()` (line 43) has stored the circle. The circle is left without an admin membership. That partial write is not modelled either.
- Circles.SortCircles: circles that tie on both counters keep their table order. The database gives no such guarantee.
- `PositiveIntegerField` counters are unbounded `nat`s. The database's 32-bit upper limit is not modelled.
- Whitespace trimming of text fields is not modelled: a value is blank only when empty.
- Pictures, ratings, passengers beyond their initial state, and the timestamps from `cride/utils/models.py` are left out. They take part in none of the modelled checks.
- Circle update and partial update are modelled through their permissions only. The update itself is framework code.
- User `update` and `partial_update` are modelled through their permissions only. So are `login`, `signup` and `verify`, whose serializers authenticate, send email and sign tokens.
- The profile serializer's fields are left out. The model records whose profile is edited and whether the edit is partial.
- Ride join, ride update, invitation redemption and the periodic ride-deactivation task are not part of this model. Their code lies outside the modelled files or is I/O.
- Admin pages, URL routing, the legacy function views in `cride/circles/views.py`, and view dispatch are framework glue.
- HTTP status codes and serializer output shapes are left out. Failures are `Result` errors.
- Transactions and concurrent requests are left out. Each request runs alone, against the store left by the one before.

## Findings

| source | as written | input that shows it | evidently intended | confidence | as-written member | corrected member |
|---|---|---|---|---|---|---|
| cride/users/views/users.py:103-106 | `members__is_active=True` filters on the member user's own `is_active` flag, not on the membership's | a user whose only membership in a circle was deactivated still gets that circle; a user who left and rejoined gets it twice | list each circle where the requester's membership is active, once | high (not executed) | UserViews.Retrieve and UserViews.RetrieveCirclesAsWritten, with UserViews.AsWrittenListsLeftCircle and UserViews.AsWrittenRepeatsRejoinedCircle | UserViews.RetrieveCorrected and UserViews.RetrieveCircles, with UserViews.RetrieveVersionsAgreeOnUser, UserViews.RetrieveCirclesExact and UserViews.CorrectedListsRejoinedCircleOnce |
| cride/users/views/users.py:44-47 | `profile` is missing from the IsAccountOwner branch, so it falls through to IsAuthenticated only | any authenticated user sends PATCH to another user's `profile` URL and passes every permission | `profile` guarded by IsAccountOwner like `update` | medium (not executed) | UserViews.ActionPermissions, with UserViews.ProfileLacksOwnerCheck | UserViews.ActionPermissionsCorrected, with UserViews.OwnerGuardsAccountActions |

=== FILE: circle_permissions.dfy ===
/** The circle-admin permission: may the requester change this circle? */
module CirclePermissions {
  import opened Store
  import opened Seqs
  import MembershipViews

  /** Row `m` makes `user` an active admin of `circle`. */
  predicate IsAdminRow(m: Membership, user: UserId, circle: CircleId) {
    m.user == user && m.circle == circle && m.isAdmin && m.isActive
  }

  /**
   * `IsCircleAdmin.has_object_permission`: granted iff an active admin membership
   * of the requester in this circle exists.
   */
  function IsCircleAdmin(s: Store, requester: UserId, circle: CircleId): (r: bool)
    ensures r <==> exists k :: 0 <= k < |s.memberships| && IsAdminRow(s.memberships[k], requester, circle)
  {
    Find(s.memberships, m => IsAdminRow(m, requester, circle)).Some?
  }

  /**
   * In a valid store the requester's one active row in the circle decides: the
   * permission is exactly its admin flag, whatever the requester's rows elsewhere.
   */
  lemma ActiveRowDecides(s: Store, requester: UserId, circle: CircleId, k: nat)
    requires Valid(s)
    requires k < |s.memberships| && IsActiveMembership(s.memberships[k], requester, circle)
    ensures IsCircleAdmin(s, requester, circle) == s.memberships[k].isAdmin
  {
    if IsCircleAdmin(s, requester, circle) {
      var l :| 0 <= l < |s.memberships| && IsAdminRow(s.memberships[l], requester, circle);
      if l != k {
        assert false;
      }
    }
  }

  /** Without an active row in the circle (an inactive admin row included) the requester is denied. */
  lemma NoActiveRowDenied(s: Store, requester: UserId, circle: CircleId)
    requires forall k :: 0 <= k < |s.memberships| ==> !IsActiveMembership(s.memberships[k], requester, circle)
    ensures !IsCircleAdmin(s, requester, circle)
  {
  }

  /** An admin who removes their own membership loses the permission with it. */
  lemma SelfRemovalRevokesAdmin(s: Store, circle: CircleId, requester: UserId)
    requires Valid(s) && requester < |s.users|
    requires MembershipViews.Destroy(s, circle, s.users[requester].username).Success?
    ensures !IsCircleAdmin(MembershipViews.Destroy(s, circle, s.users[requester].username).value, requester, circle)
  {
    var t := MembershipViews.Destroy(s, circle, s.users[requester].username).value;
    var k := MembershipViews.GetMember(s, circle, s.users[requester].username).value;
    assert s.memberships[k].user == requester;
    forall l | 0 <= l < |t.memberships|
      ensures !IsAdminRow(t.memberships[l], requester, circle)
    {
      if l != k {
        assert t.memberships[l] == s.memberships[l];
      }
    }
  }
}

=== FILE: circles.dfy ===
/**
 * Circles: the model's field defaults and ordering, the circle serializer's
 * validation, and the circle views (queryset per action, permissions per action,
 * lookup by slug, and creation, which makes the creator the circle's admin).
 */
module Circles {
  import opened Wrappers
  import opened Store
  import opened Seqs
  import opened Permissions
  import CirclePermissions

  const NAME_MAX_LENGTH: nat := 140
  const SLUG_MAX_LENGTH: nat := 40
  const ABOUT_MAX_LENGTH: nat := 255
  const MEMBERS_LIMIT_MIN: int := 10
  const MEMBERS_LIMIT_MAX: int := 32000

  /** Invitations the creator of a circle starts with. */
  const CREATOR_INVITATIONS: nat := 10

  // ---------------------------------------------------------------- model

  /** A circle with every field the model defaults: no rides, unverified, public, limited to 0. */
  function ModelDefaults(id: CircleId, name: string, slugName: string, about: string): (c: Circle)
    ensures c.id == id && c.name == name && c.slugName == slugName && c.about == about
  {
    Circle(id, name, slugName, about, 0, 0, false, true, true, 0)
  }

  /** The rule the serializer enforces: a circle is limited exactly when it has a positive limit. */
  predicate LimitConsistent(c: Circle) {
    c.isLimited <==> c.membersLimit > 0
  }

  /**
   * The model's own defaults break that rule (limited, with a limit of 0); only
   * the serializer's `is_limited` default of false keeps created circles consistent.
   */
  lemma ModelDefaultsBreakLimitRule(id: CircleId, name: string, slugName: string, about: string)
    ensures var c := ModelDefaults(id, name, slugName, about);
      && c.ridesOffered == 0 && c.ridesTaken == 0 && !c.verified && c.isPublic
      && c.isLimited && c.membersLimit == 0
      && !LimitConsistent(c)
  {
  }

  /** `Meta.ordering`: more rides taken first, ties broken by more rides offered. */
  predicate Precedes(a: Circle, b: Circle) {
    a.ridesTaken > b.ridesTaken || (a.ridesTaken == b.ridesTaken && a.ridesOffered >= b.ridesOffered)
  }

  predicate Ordered(cs: seq<Circle>) {
    forall i, j :: 0 <= i < j < |cs| ==> Precedes(cs[i], cs[j])
  }

  /** Puts `c` in front of the first circle it precedes. */
  function Insert(c: Circle, cs: seq<Circle>): (r: seq<Circle>)
    requires Ordered(cs)
    ensures Ordered(r)
    ensures multiset(r) == multiset(cs) + multiset{c}
    ensures forall x :: x in r ==> x == c || x in cs
  {
    if |cs| == 0 then [c]
    else if Precedes(c, cs[0]) then [c] + cs
    else
      var rest := Insert(c, cs[1..]);
      assert forall x :: x in rest ==> Precedes(cs[0], x);
      assert cs == [cs[0]] + cs[1..];
      [cs[0]] + rest
  }

  /** The circles in `Meta.ordering` order; circles that tie keep their table order. */
  function SortCircles(cs: seq<Circle>): (r: seq<Circle>)
    ensures Ordered(r)
    ensures multiset(r) == multiset(cs)
  {
    if |cs| == 0 then []
    else
      assert cs == [cs[0]] + cs[1..];
      Insert(cs[0], SortCircles(cs[1..]))
  }

  /** Sorting a list that is already in order leaves it as it is, so sorting twice is sorting once. */
  lemma {:induction false} SortOrderedUnchanged(cs: seq<Circle>)
    requires Ordered(cs)
    ensures SortCircles(cs) == cs
  {
    if |cs| > 0 {
      SortOrderedUnchanged(cs[1..]);
      assert cs == [cs[0]] + cs[1..];
      if |cs| > 1 {
        assert Precedes(cs[0], cs[1]);
      }
    }
  }

  // ---------------------------------------------------------------- serializer

  /**
   * A create request's body. The last four fields are read-only in the serializer:
   * a client may send them, and they are dropped.
   */
  datatype CircleInput = CircleInput(
    name: Option<string>,
    slugName: Option<string>,
    about: Option<string>,
    isLimited: Option<bool>,
    membersLimit: Option<int>,
    isPublic: Option<bool>,
    verified: Option<bool>,
    ridesOffered: Option<int>,
    ridesTaken: Option<int>)

  /** What validation hands to `save`: the writable fields, with `is_limited` defaulted. */
  datatype CircleAttrs = CircleAttrs(name: string, slugName: string, about: string,
                                     isLimited: bool, membersLimit: Option<nat>)

  datatype Field = Name | SlugName | About | MembersLimit

  datatype Problem = Required | Blank | TooLong | NotSlug | Taken | BelowMin | AboveMax

  datatype FieldError = FieldError(field: Field, problem: Problem)

  /** Field errors are reported together; `validate` runs only when there are none. */
  datatype CircleError = InvalidFields(errors: set<FieldError>) | LimitMismatch

  /** A required text field: missing, blank (and then nothing else is checked) or too long. */
  function TextErrors(f: Field, value: Option<string>, maxLength: nat): (r: set<FieldError>)
    ensures r == {} <==> value.Some? && 0 < |value.value| <= maxLength
    ensures forall e :: e in r ==> e.field == f
  {
    match value
    case None => {FieldError(f, Required)}
    case Some(v) =>
      if |v| == 0 then {FieldError(f, Blank)}
      else if |v| > maxLength then {FieldError(f, TooLong)}
      else {}
  }

  predicate IsSlugChar(ch: char) {
    ch == '-' || ch == '_' || ('a' <= ch <= 'z') || ('A' <= ch <= 'Z') || ('0' <= ch <= '9')
  }

  /** Letters, digits, hyphens and underscores only. */
  predicate IsSlug(v: string) {
    forall i :: 0 <= i < |v| ==> IsSlugChar(v[i])
  }

  predicate SlugInUse(s: Store, v: string) {
    exists i :: 0 <= i < |s.circles| && s.circles[i].slugName == v
  }

  /** The slug field: missing or blank alone; otherwise every failing validator (length, pattern, uniqueness). */
  function SlugErrors(s: Store, value: Option<string>): (r: set<FieldError>)
    ensures r == {} <==> value.Some? && 0 < |value.value| <= SLUG_MAX_LENGTH && IsSlug(value.value)
                         && !SlugInUse(s, value.value)
    ensures forall e :: e in r ==> e.field == SlugName
  {
    match value
    case None => {FieldError(SlugName, Required)}
    case Some(v) =>
      if |v| == 0 then {FieldError(SlugName, Blank)}
      else
        (if |v| > SLUG_MAX_LENGTH then {FieldError(SlugName, TooLong)} else {})
        + (if !IsSlug(v) then {FieldError(SlugName, NotSlug)} else {})
        + (if SlugInUse(s, v) then {FieldError(SlugName, Taken)} else {})
  }

  /** The optional `members_limit`: when present, it must lie in [10, 32000]. */
  function LimitErrors(value: Option<int>): (r: set<FieldError>)
    ensures r == {} <==> value.None? || MEMBERS_LIMIT_MIN <= value.value <= MEMBERS_LIMIT_MAX
    ensures forall e :: e in r ==> e.field == MembersLimit
  {
    match value
    case None => {}
    case Some(n) =>
      if n < MEMBERS_LIMIT_MIN then {FieldError(MembersLimit, BelowMin)}
      else if n > MEMBERS_LIMIT_MAX then {FieldError(MembersLimit, AboveMax)}
      else {}
  }

  /** Every field-level error of a create request; read-only fields are never looked at. */
  function FieldErrorsOf(s: Store, input: CircleInput): (r: set<FieldError>)
    ensures r == {} <==>
      TextErrors(Name, input.name, NAME_MAX_LENGTH) == {} && SlugErrors(s, input.slugName) == {}
      && TextErrors(About, input.about, ABOUT_MAX_LENGTH) == {} && LimitErrors(input.membersLimit) == {}
  {
    TextErrors(Name, input.name, NAME_MAX_LENGTH)
    + SlugErrors(s, input.slugName)
    + TextErrors(About, input.about, ABOUT_MAX_LENGTH)
    + LimitErrors(input.membersLimit)
  }

  /** Python truthiness of an optional integer: present and non-zero. */
  predicate Truthy(n: Option<nat>) {
    n.Some? && n.value != 0
  }

  /**
   * `validate`: a circle is limited iff it states a limit (`is_limited ^ bool(members_limit)`
   * must be false). On success the attributes come back unchanged.
   */
  function Validate(attrs: CircleAttrs): (r: Result<CircleAttrs, CircleError>)
    ensures r.Success? ==> r.value == attrs
    ensures r.Failure? ==> r.error == LimitMismatch
    ensures r.Failure? <==> attrs.isLimited != Truthy(attrs.membersLimit)
  {
    if attrs.isLimited != Truthy(attrs.membersLimit) then Failure(LimitMismatch) else Success(attrs)
  }

  /** Field validation, then `validate`. */
  function ValidateInput(s: Store, input: CircleInput): (r: Result<CircleAttrs, CircleError>)
    ensures r.Failure? && r.error.InvalidFields? ==> r.error.errors == FieldErrorsOf(s, input) && r.error.errors != {}
    ensures r.Success? ==> Some(r.value.name) == input.name && Some(r.value.slugName) == input.slugName
                           && Some(r.value.about) == input.about
    ensures r.Success? ==> r.value.isLimited == input.isLimited.GetOr(false)
    ensures r.Success? ==> (r.value.membersLimit.Some? <==> input.membersLimit.Some?)
    ensures r.Success? && input.membersLimit.Some? ==> r.value.membersLimit.value == input.membersLimit.value
  {
    var errors := FieldErrorsOf(s, input);
    if errors != {} then Failure(InvalidFields(errors))
    else
      var limit: Option<nat> := if input.membersLimit.Some? then Some(input.membersLimit.value) else None;
      Validate(CircleAttrs(input.name.value, input.slugName.value, input.about.value,
                           input.isLimited.GetOr(false), limit))
  }

  /** Everything a create request must satisfy, in one place and without the check order. */
  predicate InputAcceptable(s: Store, input: CircleInput) {
    && input.name.Some? && 0 < |input.name.value| <= 140
    && input.slugName.Some? && 0 < |input.slugName.value| <= 40 && IsSlug(input.slugName.value)
    && (forall i :: 0 <= i < |s.circles| ==> s.circles[i].slugName != input.slugName.value)
    && input.about.Some? && 0 < |input.about.value| <= 255
    && (input.membersLimit.Some? ==> 10 <= input.membersLimit.value <= 32000)
    && (input.isLimited == Some(true) <==> input.membersLimit.Some?)
  }

  /** Validation accepts a request exactly when it is acceptable. */
  lemma ValidateInputIff(s: Store, input: CircleInput)
    ensures ValidateInput(s, input).Success? <==> InputAcceptable(s, input)
  {
  }

  /**
   * With the fields valid, `is_limited` without a limit is refused, and so is a
   * limit with `is_limited` false or left out.
   */
  lemma LimitMismatchCases(s: Store, input: CircleInput)
    requires FieldErrorsOf(s, input) == {}
    ensures input.isLimited == Some(true) && input.membersLimit.None? ==> ValidateInput(s, input) == Failure(LimitMismatch)
    ensures input.isLimited != Some(true) && input.membersLimit.Some? ==> ValidateInput(s, input) == Failure(LimitMismatch)
  {
  }

  /** The read-only fields have no effect on validation. */
  lemma ReadOnlyFieldsIgnored(s: Store, input: CircleInput, isPublic: Option<bool>, verified: Option<bool>,
                              ridesOffered: Option<int>, ridesTaken: Option<int>)
    ensures ValidateInput(s, input) == ValidateInput(s, input.(isPublic := isPublic, verified := verified,
                                                                ridesOffered := ridesOffered, ridesTaken := ridesTaken))
  {
  }

  // ---------------------------------------------------------------- views

  predicate IsPublicCircle(c: Circle) {
    c.isPublic
  }

  /** `get_queryset`: `list` shows public circles only, every other action sees all of them, in model order. */
  function Queryset(s: Store, action: string): (r: seq<Circle>)
    ensures Ordered(r)
    ensures action == "list" ==> forall i :: 0 <= i < |r| ==> r[i].isPublic
    ensures action == "list" ==> multiset(r) == multiset(Filter(s.circles, IsPublicCircle))
    ensures action != "list" ==> multiset(r) == multiset(s.circles)
  {
    if action == "list" then
      var r := SortCircles(Filter(s.circles, IsPublicCircle));
      assert forall i :: 0 <= i < |r| ==> r[i] in multiset(Filter(s.circles, IsPublicCircle));
      r
    else SortCircles(s.circles)
  }

  /** The list holds exactly the public circles, each as often as the table does, and nothing else. */
  lemma ListIsPublicCircles(s: Store)
    ensures forall i :: 0 <= i < |s.circles| ==> (s.circles[i] in Queryset(s, "list") <==> s.circles[i].isPublic)
  {
    var r := Queryset(s, "list");
    var f := Filter(s.circles, IsPublicCircle);
    forall i | 0 <= i < |s.circles|
      ensures s.circles[i] in r <==> s.circles[i].isPublic
    {
      assert s.circles[i] in r <==> s.circles[i] in multiset(r);
      assert s.circles[i] in f <==> s.circles[i] in multiset(f);
    }
  }

  /** `get_permissions`: authentication always; `update` and `partial_update` also need a circle admin. */
  function ActionPermissions(action: string): (r: seq<Permission>)
    ensures |r| >= 1 && r[0] == IsAuthenticated
    ensures IsCircleAdmin in r <==> action == "update" || action == "partial_update"
    ensures forall p :: p in r ==> p == IsAuthenticated || p == IsCircleAdmin
  {
    [IsAuthenticated] + (if action in ["update", "partial_update"] then [IsCircleAdmin] else [])
  }

  /** Whether an authenticated requester passes every permission of `action` on `circle`. */
  function Authorized(s: Store, requester: UserId, action: string, circle: CircleId): (r: bool)
    ensures r <==> forall p :: p in ActionPermissions(action) ==>
                     (p == IsCircleAdmin ==> CirclePermissions.IsCircleAdmin(s, requester, circle))
  {
    IsCircleAdmin !in ActionPermissions(action) || CirclePermissions.IsCircleAdmin(s, requester, circle)
  }

  /** Only active admins may change a circle; any authenticated user may read one. */
  lemma AuthorizedIff(s: Store, requester: UserId, action: string, circle: CircleId)
    ensures Authorized(s, requester, action, circle) <==>
      (action == "update" || action == "partial_update" ==>
         exists k :: 0 <= k < |s.memberships| && CirclePermissions.IsAdminRow(s.memberships[k], requester, circle))
  {
  }

  /** `get_object` by `slug_name`: the circle's id, if a circle has that slug. */
  function CircleBySlug(s: Store, slug: string): (r: Option<CircleId>)
    requires Valid(s)
    ensures r.Some? ==> r.value < |s.circles| && s.circles[r.value].slugName == slug
    ensures r.None? <==> !SlugInUse(s, slug)
  {
    Find(s.circles, (c: Circle) => c.slugName == slug)
  }

  /**
   * A private circle is left out of the list, yet `retrieve` finds it by its slug
   * because every action but `list` sees every circle.
   */
  lemma PrivateCircleRetrievable(s: Store, id: CircleId)
    requires Valid(s) && id < |s.circles| && !s.circles[id].isPublic
    ensures s.circles[id] !in Queryset(s, "list")
    ensures s.circles[id] in Queryset(s, "retrieve")
    ensures CircleBySlug(s, s.circles[id].slugName) == Some(id)
  {
    ListIsPublicCircles(s);
    var all := Queryset(s, "retrieve");
    assert s.circles[id] in multiset(s.circles);
    assert s.circles[id] in multiset(all);
    var r := CircleBySlug(s, s.circles[id].slugName);
    assert r.Some?;
    if r.value != id {
      assert false;
    }
  }

  /**
   * `create` followed by `perform_create`: validate, store the circle with the
   * model defaults under the next id, then give the creator an active admin
   * membership with CREATOR_INVITATIONS invitations. Nothing else changes.
   */
  function CreateCircle(s: Store, requester: UserId, input: CircleInput): (r: Result<Reply<Circle>, CircleError>)
    ensures r.Success? ==> r.value.store == s.(circles := s.circles + [r.value.body],
                                               memberships := r.value.store.memberships)
    ensures r.Success? ==>
      r.value.store.memberships
        == s.memberships + [Membership(requester, |s.circles|, None, true, true, CREATOR_INVITATIONS, 0, 0)]
    ensures r.Failure? <==> ValidateInput(s, input).Failure?
  {
    var attrs :- ValidateInput(s, input);
    var c := ModelDefaults(|s.circles|, attrs.name, attrs.slugName, attrs.about)
               .(isLimited := attrs.isLimited, membersLimit := attrs.membersLimit.GetOr(0));
    var m := Membership(requester, c.id, None, true, true, CREATOR_INVITATIONS, 0, 0);
    Success(Reply(s.(circles := s.circles + [c], memberships := s.memberships + [m]), c))
  }

  /**
   * The created circle carries the request's name, slug, description, `is_limited`
   * and `members_limit` (0 when none was given), the model defaults for every
   * read-only field whatever the request said, and a limit that agrees with
   * `is_limited`.
   */
  lemma CreatedCircleFields(s: Store, requester: UserId, input: CircleInput)
    requires CreateCircle(s, requester, input).Success?
    ensures var c := CreateCircle(s, requester, input).value.body;
      && c.id == |s.circles|
      && Some(c.name) == input.name && Some(c.slugName) == input.slugName && Some(c.about) == input.about
      && c.ridesOffered == 0 && c.ridesTaken == 0 && !c.verified && c.isPublic
      && LimitConsistent(c)
      && (c.isLimited ==> MEMBERS_LIMIT_MIN <= c.membersLimit <= MEMBERS_LIMIT_MAX)
      && (c.isLimited <==> input.isLimited == Some(true))
      && c.isLimited == input.isLimited.GetOr(false)
      && c.membersLimit == (if input.membersLimit.Some? then input.membersLimit.value else 0)
  {
  }

  /** The creator, and nobody else, administers the new circle. */
  lemma CreatorIsSoleAdmin(s: Store, requester: UserId, input: CircleInput, user: UserId)
    requires Valid(s)
    requires CreateCircle(s, requester, input).Success?
    ensures var t := CreateCircle(s, requester, input).value.store;
      CirclePermissions.IsCircleAdmin(t, user, |s.circles|) <==> user == requester
  {
    var t := CreateCircle(s, requester, input).value.store;
    var k := |s.memberships|;
    assert CirclePermissions.IsAdminRow(t.memberships[k], requester, |s.circles|);
    forall l | 0 <= l < k
      ensures !CirclePermissions.IsAdminRow(t.memberships[l], user, |s.circles|)
    {
      assert t.memberships[l] == s.memberships[l];
    }
  }

  /** Creating a circle, by an existing user, keeps the store's invariants. */
  lemma CreateCircleKeepsValid(s: Store, requester: UserId, input: CircleInput)
    requires Valid(s) && requester < |s.users|
    requires CreateCircle(s, requester, input).Success?
    ensures Valid(CreateCircle(s, requester, input).value.store)
  {
    var t := CreateCircle(s, requester, input).value.store;
    var c := CreateCircle(s, requester, input).value.body;
    assert CirclesValid(t.circles) by {
      assert forall i :: 0 <= i < |s.circles| ==> t.circles[i] == s.circles[i];
      assert !SlugInUse(s, c.slugName);
    }
    assert MembershipsValid(t.memberships, |t.users|, |t.circles|) by {
      assert forall l :: 0 <= l < |s.memberships| ==> t.memberships[l] == s.memberships[l];
    }
    assert InvitationsValid(t.invitations, |t.users|, |t.circles|);
    assert RidesValid(t.rides, |t.users|, |t.circles|);
  }
}

=== FILE: invitation_manager.dfy ===
/**
 * The invitation manager's `create`: how a new invitation row gets its code.
 * The random generator is an input: `draws` is the sequence of codes it would
 * produce, one per attempt, each CODE_LENGTH characters long.
 */
module InvitationManager {
  import opened Wrappers
  import opened Store

  /** Length of every generated code. */
  const CODE_LENGTH: nat := 10

  /** The generator's draws ran out before one of them was unused. */
  datatype IssueError = CodesExhausted

  /** The outcome of one `create`: the grown table, the new row's code and the draws left. */
  datatype Issued = Issued(table: seq<Invitation>, code: Code, rest: seq<Code>)

  /** The outcome of several `create` calls in a row: the grown table, the codes in creation order and the draws left. */
  datatype Minted = Minted(table: seq<Invitation>, codes: seq<Code>, rest: seq<Code>)

  /** Every draw of the random generator has length CODE_LENGTH. */
  predicate WellFormedDraws(draws: seq<Code>) {
    forall i :: 0 <= i < |draws| ==> |draws[i]| == CODE_LENGTH
  }

  /** Unused invitation rows by `issuer` in `circle`, one per code, in order. */
  function NewRows(codes: seq<Code>, issuer: UserId, circle: CircleId): (r: seq<Invitation>)
    ensures |r| == |codes|
    ensures forall k :: 0 <= k < |codes| ==> r[k] == Invitation(codes[k], issuer, circle, false)
  {
    seq(|codes|, k requires 0 <= k < |codes| => Invitation(codes[k], issuer, circle, false))
  }

  /** Keep drawing until a code is not taken: the position of the first draw outside `taken`. */
  function Generate(taken: set<Code>, draws: seq<Code>): (r: Result<nat, IssueError>)
    ensures r.Success? ==> r.value < |draws| && draws[r.value] !in taken
    ensures r.Success? ==> forall j :: 0 <= j < r.value ==> draws[j] in taken
    ensures r.Failure? <==> forall j :: 0 <= j < |draws| ==> draws[j] in taken
  {
    if |draws| == 0 then Failure(CodesExhausted)
    else if draws[0] !in taken then Success(0)
    else
      match Generate(taken, draws[1..])
      case Failure(e) => Failure(e)
      case Success(k) => Success(k + 1)
  }

  /**
   * `Invitation.objects.create(issue_by, circle[, code])`: a supplied code is used
   * verbatim when no row has it yet; otherwise (or when none is supplied) a fresh
   * random code is drawn. The new row is unused.
   */
  function Issue(invitations: seq<Invitation>, issuer: UserId, circle: CircleId,
                 supplied: Option<Code>, draws: seq<Code>): (r: Result<Issued, IssueError>)
    requires WellFormedDraws(draws)
    ensures r.Success? ==> r.value.table == invitations + [Invitation(r.value.code, issuer, circle, false)]
    ensures r.Success? ==> r.value.code !in CodesOf(invitations)
    ensures r.Success? ==> WellFormedDraws(r.value.rest)
  {
    var taken := CodesOf(invitations);
    if supplied.Some? && supplied.value !in taken then
      Success(Issued(invitations + [Invitation(supplied.value, issuer, circle, false)], supplied.value, draws))
    else
      var k :- Generate(taken, draws);
      Success(Issued(invitations + [Invitation(draws[k], issuer, circle, false)], draws[k], draws[k + 1..]))
  }

  /** `create` adds exactly its code to the code column, so a unique code column stays unique. */
  lemma IssueKeepsCodesUnique(invitations: seq<Invitation>, issuer: UserId, circle: CircleId,
                              supplied: Option<Code>, draws: seq<Code>)
    requires WellFormedDraws(draws)
    requires Issue(invitations, issuer, circle, supplied, draws).Success?
    ensures var one := Issue(invitations, issuer, circle, supplied, draws).value;
      && CodesOf(one.table) == CodesOf(invitations) + {one.code}
      && (CodesUnique(invitations) ==> CodesUnique(one.table))
  {
    var one := Issue(invitations, issuer, circle, supplied, draws).value;
    CodesOfAppend(invitations, Invitation(one.code, issuer, circle, false));
  }

  /** A supplied code that no row has yet is used verbatim, whatever its length, and consumes no draw. */
  lemma IssueKeepsUnusedCode(invitations: seq<Invitation>, issuer: UserId, circle: CircleId,
                             code: Code, draws: seq<Code>)
    requires WellFormedDraws(draws)
    requires code !in CodesOf(invitations)
    ensures Issue(invitations, issuer, circle, Some(code), draws)
         == Success(Issued(invitations + [Invitation(code, issuer, circle, false)], code, draws))
  {
  }

  /** A supplied code some row already has is replaced by a different, generated one. */
  lemma IssueReplacesTakenCode(invitations: seq<Invitation>, issuer: UserId, circle: CircleId,
                               code: Code, draws: seq<Code>)
    requires WellFormedDraws(draws)
    requires code in CodesOf(invitations)
    ensures var r := Issue(invitations, issuer, circle, Some(code), draws);
      r.Success? ==> r.value.code != code && |r.value.code| == CODE_LENGTH
  {
  }

  /** Without a supplied code the row gets a generated code of CODE_LENGTH characters. */
  lemma IssueGeneratesCode(invitations: seq<Invitation>, issuer: UserId, circle: CircleId, draws: seq<Code>)
    requires WellFormedDraws(draws)
    ensures var r := Issue(invitations, issuer, circle, None, draws);
      r.Success? ==> |r.value.code| == CODE_LENGTH && r.value.code in draws
  {
  }

  /** `create` fails only when no usable code is left: the supplied one is taken or absent and every draw is taken. */
  lemma IssueFailsOnlyWhenExhausted(invitations: seq<Invitation>, issuer: UserId, circle: CircleId,
                                    supplied: Option<Code>, draws: seq<Code>)
    requires WellFormedDraws(draws)
    ensures Issue(invitations, issuer, circle, supplied, draws).Failure? <==>
      (supplied.None? || supplied.value in CodesOf(invitations))
      && forall j :: 0 <= j < |draws| ==> draws[j] in CodesOf(invitations)
  {
  }

  /**
   * `n` consecutive `create` calls without a supplied code, as the breakdown view
   * makes them: each draw that is already stored is skipped, each fresh one becomes
   * the next row. `MintIsRepeatedIssue` shows this is `Issue` applied `n` times.
   */
  function Mint(invitations: seq<Invitation>, issuer: UserId, circle: CircleId,
                n: nat, draws: seq<Code>): (r: Result<Minted, IssueError>)
    requires WellFormedDraws(draws)
    ensures r.Success? ==> |r.value.codes| == n
    ensures r.Success? ==> r.value.table == invitations + NewRows(r.value.codes, issuer, circle)
    ensures r.Success? ==> WellFormedDraws(r.value.rest)
    ensures n == 0 ==> r == Success(Minted(invitations, [], draws))
    decreases |draws|
  {
    if n == 0 then Success(Minted(invitations, [], draws))
    else if |draws| == 0 then Failure(CodesExhausted)
    else if draws[0] in CodesOf(invitations) then Mint(invitations, issuer, circle, n, draws[1..])
    else
      var row := Invitation(draws[0], issuer, circle, false);
      match Mint(invitations + [row], issuer, circle, n - 1, draws[1..])
      case Failure(e) => Failure(e)
      case Success(more) =>
        NewRowsCons(draws[0], more.codes, issuer, circle);
        Success(Minted(more.table, [draws[0]] + more.codes, more.rest))
  }

  /** A draw that is already stored is passed over: `create` then behaves as if it had never been drawn. */
  lemma IssueSkipsTakenDraw(invitations: seq<Invitation>, issuer: UserId, circle: CircleId, draws: seq<Code>)
    requires WellFormedDraws(draws) && |draws| > 0 && draws[0] in CodesOf(invitations)
    ensures Issue(invitations, issuer, circle, None, draws) == Issue(invitations, issuer, circle, None, draws[1..])
  {
    var g := Generate(CodesOf(invitations), draws[1..]);
    if g.Success? {
      assert draws[g.value + 1] == draws[1..][g.value];
      assert draws[g.value + 2..] == draws[1..][g.value + 1..];
    }
  }

  /**
   * Minting `n > 0` codes is one `create` followed by minting `n - 1` more from the
   * draws it left, with the first code in front.
   */
  lemma {:induction false} MintIsRepeatedIssue(invitations: seq<Invitation>, issuer: UserId, circle: CircleId,
                                               n: nat, draws: seq<Code>)
    requires WellFormedDraws(draws) && n > 0
    ensures Mint(invitations, issuer, circle, n, draws) ==
      match Issue(invitations, issuer, circle, None, draws)
      case Failure(e) => Failure(e)
      case Success(one) =>
        match Mint(one.table, issuer, circle, n - 1, one.rest)
        case Failure(e) => Failure(e)
        case Success(more) => Success(Minted(more.table, [one.code] + more.codes, more.rest))
    decreases |draws|
  {
    if |draws| > 0 && draws[0] in CodesOf(invitations) {
      IssueSkipsTakenDraw(invitations, issuer, circle, draws);
      MintIsRepeatedIssue(invitations, issuer, circle, n, draws[1..]);
    }
  }

  /**
   * Every code minted is CODE_LENGTH long, new to the table and different from the
   * others minted with it.
   */
  lemma {:induction false} MintFresh(invitations: seq<Invitation>, issuer: UserId, circle: CircleId,
                                     n: nat, draws: seq<Code>)
    requires WellFormedDraws(draws)
    requires Mint(invitations, issuer, circle, n, draws).Success?
    ensures var m := Mint(invitations, issuer, circle, n, draws).value;
      && (forall k :: 0 <= k < n ==> |m.codes[k]| == CODE_LENGTH && m.codes[k] !in CodesOf(invitations))
      && (forall k, l :: 0 <= k < l < n ==> m.codes[k] != m.codes[l])
    decreases |draws|
  {
    if n > 0 {
      if draws[0] in CodesOf(invitations) {
        MintFresh(invitations, issuer, circle, n, draws[1..]);
      } else {
        var row := Invitation(draws[0], issuer, circle, false);
        var more := Mint(invitations + [row], issuer, circle, n - 1, draws[1..]).value;
        CodesOfAppend(invitations, row);
        MintFresh(invitations + [row], issuer, circle, n - 1, draws[1..]);
        MintStep(invitations, draws[0], CodesOf(invitations + [row]), more.codes);
      }
    }
  }

  /** The codes of a `create` followed by more `create`s are fresh and distinct when each step's are. */
  lemma MintStep(invitations: seq<Invitation>, code: Code, taken: set<Code>, more: seq<Code>)
    requires taken == CodesOf(invitations) + {code}
    requires |code| == CODE_LENGTH && code !in CodesOf(invitations)
    requires forall k :: 0 <= k < |more| ==> |more[k]| == CODE_LENGTH && more[k] !in taken
    requires forall k, l :: 0 <= k < l < |more| ==> more[k] != more[l]
    ensures var codes := [code] + more;
      && (forall k :: 0 <= k < |codes| ==> |codes[k]| == CODE_LENGTH && codes[k] !in CodesOf(invitations))
      && (forall k, l :: 0 <= k < l < |codes| ==> codes[k] != codes[l])
  {
    var codes := [code] + more;
    assert forall k :: 1 <= k < |codes| ==> codes[k] == more[k - 1];
  }

  /** Minting keeps the code column unique. */
  lemma MintKeepsCodesUnique(invitations: seq<Invitation>, issuer: UserId, circle: CircleId,
                             n: nat, draws: seq<Code>)
    requires WellFormedDraws(draws)
    requires CodesUnique(invitations)
    requires Mint(invitations, issuer, circle, n, draws).Success?
    ensures CodesUnique(Mint(invitations, issuer, circle, n, draws).value.table)
  {
    var m := Mint(invitations, issuer, circle, n, draws).value;
    MintFresh(invitations, issuer, circle, n, draws);
    var rows := NewRows(m.codes, issuer, circle);
    forall i, j | 0 <= i < j < |m.table|
      ensures m.table[i].code != m.table[j].code
    {
      if j >= |invitations| {
        assert m.table[j] == rows[j - |invitations|];
        if i >= |invitations| {
          assert m.table[i] == rows[i - |invitations|];
        } else {
          assert m.table[i] == invitations[i];
          assert invitations[i].code in CodesOf(invitations);
        }
      }
    }
  }

  lemma NewRowsCons(code: Code, codes: seq<Code>, issuer: UserId, circle: CircleId)
    ensures [Invitation(code, issuer, circle, false)] + NewRows(codes, issuer, circle)
         == NewRows([code] + codes, issuer, circle)
  {
  }

  /**
   * When the generator's draws are distinct and none is stored yet, minting `n`
   * codes succeeds and takes exactly the first `n` draws, in order.
   */
  lemma {:induction false} MintTakesFreshDraws(invitations: seq<Invitation>, issuer: UserId, circle: CircleId,
                                               n: nat, draws: seq<Code>)
    requires WellFormedDraws(draws)
    requires n <= |draws|
    requires forall j :: 0 <= j < |draws| ==> draws[j] !in CodesOf(invitations)
    requires forall j, k :: 0 <= j < k < |draws| ==> draws[j] != draws[k]
    ensures Mint(invitations, issuer, circle, n, draws)
         == Success(Minted(invitations + NewRows(draws[..n], issuer, circle), draws[..n], draws[n..]))
    decreases n
  {
    if n > 0 {
      var row := Invitation(draws[0], issuer, circle, false);
      CodesOfAppend(invitations, row);
      var rest := draws[1..];
      assert forall j :: 0 <= j < |rest| ==> rest[j] == draws[j + 1];
      MintTakesFreshDraws(invitations + [row], issuer, circle, n - 1, rest);
      assert draws[..n] == [draws[0]] + rest[..n - 1];
      assert rest[n - 1..] == draws[n..];
    }
  }
}

=== FILE: memberships.dfy ===
/**
 * The circle membership views: who may call each action, which memberships the
 * view can see, soft deactivation, and the invitations breakdown that tops a
 * member's unused codes up to their remaining quota.
 */
module MembershipViews {
  import opened Wrappers
  import opened Store
  import opened Seqs
  import opened Permissions
  import opened InvitationManager

  datatype MembershipError = NotFound | CodesExhausted

  /** What the invitations action responds with. */
  datatype InvitationsBreakdown = InvitationsBreakdown(usedInvitations: seq<Membership>, invitations: seq<Code>)

  /** Every action needs an authenticated active member; `destroy` and `invitations` add one check each. */
  function ActionPermissions(action: string): (r: seq<Permission>)
    ensures |r| >= 2 && r[0] == IsAuthenticated && r[1] == IsActiveCircleMember
    ensures IsAdminOrMembershipOwner in r <==> action == "destroy"
    ensures IsSelfMember in r <==> action == "invitations"
    ensures forall p :: p in r ==> p == IsAuthenticated || p == IsActiveCircleMember
                                   || p == IsAdminOrMembershipOwner || p == IsSelfMember
    ensures action != "destroy" && action != "invitations" ==> r == [IsAuthenticated, IsActiveCircleMember]
  {
    [IsAuthenticated, IsActiveCircleMember]
      + (if action == "destroy" then [IsAdminOrMembershipOwner] else [])
      + (if action == "invitations" then [IsSelfMember] else [])
  }

  predicate InCircleActive(circle: CircleId, m: Membership) {
    m.circle == circle && m.isActive
  }

  /** The members list: active memberships of this circle only, in the store's row order. */
  function Members(s: Store, circle: CircleId): (r: seq<Membership>)
    ensures forall i :: 0 <= i < |r| ==> r[i] in s.memberships && r[i].circle == circle && r[i].isActive
    ensures forall k :: 0 <= k < |s.memberships| && s.memberships[k].circle == circle && s.memberships[k].isActive
                        ==> s.memberships[k] in r
    ensures |r| == Count(s.memberships, m => InCircleActive(circle, m))
  {
    Filter(s.memberships, m => InCircleActive(circle, m))
  }

  /** Row `m` is the active membership in `circle` of the user called `username`. */
  predicate IsNamedMember(s: Store, m: Membership, circle: CircleId, username: string) {
    m.circle == circle && m.isActive && m.user < |s.users| && s.users[m.user].username == username
  }

  /** In a valid store at most one row is the active membership of a given username in a circle. */
  lemma NamedMemberUnique(s: Store, circle: CircleId, username: string, k: nat, l: nat)
    requires Valid(s)
    requires k < |s.memberships| && l < |s.memberships|
    requires IsNamedMember(s, s.memberships[k], circle, username)
    requires IsNamedMember(s, s.memberships[l], circle, username)
    ensures k == l
  {
    var a, b := s.memberships[k], s.memberships[l];
    if a.user != b.user {
      assert false;
    }
  }

  /**
   * `get_object`: the membership row of `username` in `circle`, found only while it
   * is active. A deactivated or unknown member is not found.
   */
  function GetMember(s: Store, circle: CircleId, username: string): (r: Option<nat>)
    requires Valid(s)
    ensures r.Some? ==> r.value < |s.memberships| && IsNamedMember(s, s.memberships[r.value], circle, username)
    ensures r.Some? ==> forall k :: 0 <= k < |s.memberships| && IsNamedMember(s, s.memberships[k], circle, username)
                                    ==> k == r.value
    ensures r.None? <==> forall k :: 0 <= k < |s.memberships| ==> !IsNamedMember(s, s.memberships[k], circle, username)
  {
    var r := Find(s.memberships, m => IsNamedMember(s, m, circle, username));
    if r.Some? then
      forall k | 0 <= k < |s.memberships| && IsNamedMember(s, s.memberships[k], circle, username)
        ensures k == r.value
      {
        NamedMemberUnique(s, circle, username, k, r.value);
      }
      r
    else r
  }

  /** `perform_destroy`: row `k` becomes inactive; no row is removed and nothing else changes. */
  function Deactivate(s: Store, k: nat): (r: Store)
    requires k < |s.memberships|
    ensures |r.memberships| == |s.memberships|
    ensures !r.memberships[k].isActive
    ensures r.memberships[k].(isActive := s.memberships[k].isActive) == s.memberships[k]
    ensures forall l :: 0 <= l < |s.memberships| && l != k ==> r.memberships[l] == s.memberships[l]
    ensures r == s.(memberships := r.memberships)
    ensures Valid(s) ==> Valid(r)
  {
    s.(memberships := s.memberships[k := s.memberships[k].(isActive := false)])
  }

  /** The `destroy` action: look the member up, then deactivate it. */
  function Destroy(s: Store, circle: CircleId, username: string): (r: Result<Store, MembershipError>)
    requires Valid(s)
    ensures r.Failure? <==> forall k :: 0 <= k < |s.memberships| ==> !IsNamedMember(s, s.memberships[k], circle, username)
    ensures r.Failure? ==> r.error == NotFound
    ensures r.Success? ==> exists k :: 0 <= k < |s.memberships| && IsNamedMember(s, s.memberships[k], circle, username)
                                       && r.value == Deactivate(s, k)
    ensures r.Success? ==> Valid(r.value)
  {
    match GetMember(s, circle, username)
    case None => Failure(NotFound)
    case Some(k) => Success(Deactivate(s, k))
  }

  /** A member who has just been removed is no longer found, so removing them again is a not-found error. */
  lemma DestroyTwiceNotFound(s: Store, circle: CircleId, username: string)
    requires Valid(s)
    requires Destroy(s, circle, username).Success?
    ensures Destroy(Destroy(s, circle, username).value, circle, username) == Failure(NotFound)
  {
    var k := GetMember(s, circle, username).value;
    var t := Destroy(s, circle, username).value;
    assert forall l :: 0 <= l < |t.memberships| && l != k ==> t.memberships[l] == s.memberships[l];
  }

  predicate IsInvitedBy(circle: CircleId, inviter: UserId, m: Membership) {
    m.circle == circle && m.invitedBy == Some(inviter) && m.isActive
  }

  predicate IsUnusedFrom(inv: Invitation, circle: CircleId, issuer: UserId) {
    inv.circle == circle && inv.issuedBy == issuer && !inv.used
  }

  /** The codes of the unused invitations `issuer` has in `circle`, oldest row first. */
  function UnusedCodes(invitations: seq<Invitation>, circle: CircleId, issuer: UserId): (r: seq<Code>)
    ensures |r| <= |invitations|
    ensures forall i :: 0 <= i < |invitations| && IsUnusedFrom(invitations[i], circle, issuer)
                        ==> invitations[i].code in r
    ensures forall c :: c in r ==> c in CodesOf(invitations)
    ensures forall c :: c in r ==>
      exists i :: 0 <= i < |invitations| && IsUnusedFrom(invitations[i], circle, issuer) && invitations[i].code == c
  {
    if |invitations| == 0 then []
    else
      var init := invitations[..|invitations| - 1];
      var last := invitations[|invitations| - 1];
      assert forall i :: 0 <= i < |init| ==> init[i] == invitations[i];
      assert CodesOf(invitations) == CodesOf(init) + {last.code} by {
        assert invitations == init + [last];
        CodesOfAppend(init, last);
      }
      UnusedCodes(init, circle, issuer) + (if IsUnusedFrom(last, circle, issuer) then [last.code] else [])
  }

  /** No code occurs twice in `codes`. */
  predicate Distinct(codes: seq<Code>) {
    forall i, j :: 0 <= i < j < |codes| ==> codes[i] != codes[j]
  }

  /** With unique codes in the table, the unused-code list names no code twice. */
  lemma {:induction false} UnusedCodesDistinct(invitations: seq<Invitation>, circle: CircleId, issuer: UserId)
    requires CodesUnique(invitations)
    ensures Distinct(UnusedCodes(invitations, circle, issuer))
    decreases |invitations|
  {
    if |invitations| > 0 {
      var init := invitations[..|invitations| - 1];
      var last := invitations[|invitations| - 1];
      assert forall i :: 0 <= i < |init| ==> init[i] == invitations[i];
      UnusedCodesDistinct(init, circle, issuer);
      var prev := UnusedCodes(init, circle, issuer);
      forall c | c in prev
        ensures c != last.code
      {
        var i :| 0 <= i < |init| && IsUnusedFrom(init[i], circle, issuer) && init[i].code == c;
        assert invitations[i].code != invitations[|invitations| - 1].code;
      }
      var r := UnusedCodes(invitations, circle, issuer);
      assert r == prev + (if IsUnusedFrom(last, circle, issuer) then [last.code] else []);
      forall i, j | 0 <= i < j < |r|
        ensures r[i] != r[j]
      {
        if j >= |prev| {
          assert r[i] == prev[i] && prev[i] in prev;
        }
      }
    }
  }

  /** Appending rows to the table appends their unused codes to the list. */
  lemma {:induction false} UnusedCodesAppend(a: seq<Invitation>, b: seq<Invitation>, circle: CircleId, issuer: UserId)
    ensures UnusedCodes(a + b, circle, issuer) == UnusedCodes(a, circle, issuer) + UnusedCodes(b, circle, issuer)
    decreases |b|
  {
    if |b| == 0 {
      assert a + b == a;
    } else {
      var init := b[..|b| - 1];
      assert (a + b)[..|a + b| - 1] == a + init;
      assert (a + b)[|a + b| - 1] == b[|b| - 1];
      UnusedCodesAppend(a, init, circle, issuer);
    }
  }

  /** Freshly minted rows of `issuer` in `circle` contribute exactly their codes. */
  lemma {:induction false} UnusedCodesOfNewRows(codes: seq<Code>, circle: CircleId, issuer: UserId)
    ensures UnusedCodes(NewRows(codes, issuer, circle), circle, issuer) == codes
    decreases |codes|
  {
    if |codes| > 0 {
      var init := codes[..|codes| - 1];
      var row := Invitation(codes[|codes| - 1], issuer, circle, false);
      NewRowsSnoc(codes, issuer, circle);
      UnusedCodesSnoc(NewRows(init, issuer, circle), row, circle, issuer);
      UnusedCodesOfNewRows(init, circle, issuer);
      assert codes == init + [codes[|codes| - 1]];
    }
  }

  /** The rows for a code list are the rows for all but its last code, then the last code's row. */
  lemma NewRowsSnoc(codes: seq<Code>, issuer: UserId, circle: CircleId)
    requires |codes| > 0
    ensures NewRows(codes, issuer, circle)
         == NewRows(codes[..|codes| - 1], issuer, circle) + [Invitation(codes[|codes| - 1], issuer, circle, false)]
  {
  }

  /** One more row adds its code to the unused list exactly when it is an unused row of `issuer` in `circle`. */
  lemma UnusedCodesSnoc(rows: seq<Invitation>, row: Invitation, circle: CircleId, issuer: UserId)
    ensures UnusedCodes(rows + [row], circle, issuer)
         == UnusedCodes(rows, circle, issuer) + (if IsUnusedFrom(row, circle, issuer) then [row.code] else [])
  {
    assert (rows + [row])[..|rows|] == rows;
  }

  /** The `used_invitations` list: active members of this circle whom `inviter` invited, in the store's row order. */
  function InvitedMembers(s: Store, circle: CircleId, inviter: UserId): (r: seq<Membership>)
    ensures forall i :: 0 <= i < |r| ==> r[i] in s.memberships && IsInvitedBy(circle, inviter, r[i])
    ensures forall k :: 0 <= k < |s.memberships| && IsInvitedBy(circle, inviter, s.memberships[k])
                        ==> s.memberships[k] in r
  {
    Filter(s.memberships, m => IsInvitedBy(circle, inviter, m))
  }

  /** How many codes the top-up mints: the quota minus the unused codes, or none. */
  function Shortfall(invitations: seq<Invitation>, circle: CircleId, issuer: UserId, remaining: nat): nat {
    Max0(remaining - |UnusedCodes(invitations, circle, issuer)|)
  }

  /**
   * The top-up loop: mint `remaining - unused` codes for `issuer` in `circle`, or
   * none when the issuer already holds that many unused codes.
   */
  function TopUp(invitations: seq<Invitation>, circle: CircleId, issuer: UserId, remaining: nat, draws: seq<Code>)
    : (r: Result<Minted, IssueError>)
    requires WellFormedDraws(draws)
    ensures r.Success? ==> |r.value.codes| == Shortfall(invitations, circle, issuer, remaining)
    ensures r.Success? ==> r.value.table == invitations + NewRows(r.value.codes, issuer, circle)
    ensures r.Success? ==>
      UnusedCodes(r.value.table, circle, issuer) == UnusedCodes(invitations, circle, issuer) + r.value.codes
    ensures r.Success? ==> |UnusedCodes(r.value.table, circle, issuer)| >= remaining
    ensures |UnusedCodes(invitations, circle, issuer)| >= remaining ==> r == Success(Minted(invitations, [], draws))
  {
    var r := Mint(invitations, issuer, circle, Shortfall(invitations, circle, issuer, remaining), draws);
    if r.Success? then
      UnusedCodesAppend(invitations, NewRows(r.value.codes, issuer, circle), circle, issuer);
      UnusedCodesOfNewRows(r.value.codes, circle, issuer);
      r
    else r
  }

  /**
   * The invitations action. It lists the active members of this circle the caller
   * invited, then mints unused codes for the caller until the caller's unused count
   * reaches the member's `remaining_invitations`. Only the invitations table
   * changes, and only by appended rows.
   */
  function Invitations(s: Store, circle: CircleId, requester: UserId, username: string, draws: seq<Code>)
    : (r: Result<Reply<InvitationsBreakdown>, MembershipError>)
    requires Valid(s)
    requires WellFormedDraws(draws)
    ensures r.Failure? && r.error == NotFound <==>
      forall k :: 0 <= k < |s.memberships| ==> !IsNamedMember(s, s.memberships[k], circle, username)
    ensures r.Success? ==> r.value.store == s.(invitations := r.value.store.invitations)
    ensures r.Success? ==> |s.invitations| <= |r.value.store.invitations|
                           && r.value.store.invitations[..|s.invitations|] == s.invitations
    ensures r.Success? ==> r.value.body.invitations == UnusedCodes(r.value.store.invitations, circle, requester)
    ensures r.Success? ==> r.value.body.usedInvitations == InvitedMembers(s, circle, requester)
  {
    match GetMember(s, circle, username)
    case None => Failure(NotFound)
    case Some(k) =>
      match TopUp(s.invitations, circle, requester, s.memberships[k].remainingInvitations, draws)
      case Failure(_) => Failure(MembershipError.CodesExhausted)
      case Success(minted) =>
        var t := s.(invitations := minted.table);
        var unused := UnusedCodes(s.invitations, circle, requester);
        assert minted.table[..|s.invitations|] == s.invitations;
        Success(Reply(t, InvitationsBreakdown(InvitedMembers(s, circle, requester), unused + minted.codes)))
  }

  /** With no unused invitation of `issuer` in `circle`, the unused-code list is empty. */
  lemma {:induction false} UnusedCodesNone(invitations: seq<Invitation>, circle: CircleId, issuer: UserId)
    requires forall i :: 0 <= i < |invitations| ==> !IsUnusedFrom(invitations[i], circle, issuer)
    ensures UnusedCodes(invitations, circle, issuer) == []
    decreases |invitations|
  {
    if |invitations| > 0 {
      UnusedCodesNone(invitations[..|invitations| - 1], circle, issuer);
    }
  }

  /**
   * A successful breakdown mints exactly the shortfall `remaining - unused` (none
   * when it is negative), and the response lists the old unused codes first:
   * `max(remaining, unused)` codes in all.
   */
  lemma InvitationsMintsShortfall(s: Store, circle: CircleId, requester: UserId, username: string,
                                  draws: seq<Code>, k: nat, reply: Reply<InvitationsBreakdown>)
    requires Valid(s) && WellFormedDraws(draws)
    requires k < |s.memberships| && IsNamedMember(s, s.memberships[k], circle, username)
    requires Invitations(s, circle, requester, username, draws) == Success(reply)
    ensures var remaining := s.memberships[k].remainingInvitations;
      var unused := UnusedCodes(s.invitations, circle, requester);
      && |reply.store.invitations| - |s.invitations| == Shortfall(s.invitations, circle, requester, remaining)
      && |reply.body.invitations| == (if remaining > |unused| then remaining else |unused|)
      && reply.body.invitations[..|unused|] == unused
  {
    var remaining := s.memberships[k].remainingInvitations;
    var unused := UnusedCodes(s.invitations, circle, requester);
    InvitationsReply(s, circle, requester, username, draws, k, reply);
    var m := TopUp(s.invitations, circle, requester, remaining, draws).value;
    ShortfallCounts(s.invitations, unused, remaining, Shortfall(s.invitations, circle, requester, remaining), m,
                    requester, circle, reply.store.invitations, reply.body.invitations);
  }

  /** The counting behind `InvitationsMintsShortfall`, stated on the top-up's result alone. */
  lemma ShortfallCounts(before: seq<Invitation>, unused: seq<Code>, remaining: nat, need: nat, m: Minted,
                        issuer: UserId, circle: CircleId, table: seq<Invitation>, listed: seq<Code>)
    requires need == Max0(remaining - |unused|) && |m.codes| == need
    requires m.table == before + NewRows(m.codes, issuer, circle)
    requires table == m.table && listed == unused + m.codes
    ensures |table| - |before| == need
    ensures |listed| == (if remaining > |unused| then remaining else |unused|)
    ensures listed[..|unused|] == unused
  {
  }

  /** The reply of a successful breakdown for the member in row `k`: the top-up's table and codes. */
  lemma InvitationsReply(s: Store, circle: CircleId, requester: UserId, username: string,
                         draws: seq<Code>, k: nat, reply: Reply<InvitationsBreakdown>)
    requires Valid(s) && WellFormedDraws(draws)
    requires k < |s.memberships| && IsNamedMember(s, s.memberships[k], circle, username)
    requires Invitations(s, circle, requester, username, draws) == Success(reply)
    ensures var top := TopUp(s.invitations, circle, requester, s.memberships[k].remainingInvitations, draws);
      && top.Success?
      && reply.store.invitations == top.value.table
      && reply.body.invitations == UnusedCodes(s.invitations, circle, requester) + top.value.codes
  {
    assert GetMember(s, circle, username) == Some(k);
  }

  /**
   * Every row a breakdown appends is an unused invitation of the caller in this
   * circle, with a fresh CODE_LENGTH code that the response lists.
   */
  lemma InvitationsNewRows(s: Store, circle: CircleId, requester: UserId, username: string,
                           draws: seq<Code>, reply: Reply<InvitationsBreakdown>)
    requires Valid(s) && WellFormedDraws(draws)
    requires Invitations(s, circle, requester, username, draws) == Success(reply)
    ensures forall i :: |s.invitations| <= i < |reply.store.invitations| ==>
      var row := reply.store.invitations[i];
      && row == Invitation(row.code, requester, circle, false)
      && |row.code| == CODE_LENGTH
      && row.code !in CodesOf(s.invitations)
      && row.code in reply.body.invitations
  {
    var k := GetMember(s, circle, username).value;
    var remaining := s.memberships[k].remainingInvitations;
    var unused := UnusedCodes(s.invitations, circle, requester);
    var m := TopUp(s.invitations, circle, requester, remaining, draws).value;
    MintFresh(s.invitations, requester, circle, Shortfall(s.invitations, circle, requester, remaining), draws);
    var rows := NewRows(m.codes, requester, circle);
    NewRowsIn(s.invitations, rows, unused, m.codes, reply);
  }

  /** Index arithmetic behind `InvitationsNewRows`: appended row `i` carries code `i - |before|`. */
  lemma NewRowsIn(before: seq<Invitation>, rows: seq<Invitation>, unused: seq<Code>, codes: seq<Code>,
                  reply: Reply<InvitationsBreakdown>)
    requires reply.store.invitations == before + rows
    requires |rows| == |codes| && forall j :: 0 <= j < |rows| ==> rows[j].code == codes[j]
    requires reply.body.invitations == unused + codes
    ensures forall i :: |before| <= i < |reply.store.invitations| ==>
      reply.store.invitations[i] == rows[i - |before|] && reply.store.invitations[i].code in reply.body.invitations
  {
    forall i | |before| <= i < |reply.store.invitations|
      ensures reply.store.invitations[i].code in reply.body.invitations
    {
      assert reply.body.invitations[|unused| + i - |before|] == codes[i - |before|];
    }
  }

  /** A breakdown by an existing user in an existing circle leaves a valid store. */
  lemma InvitationsKeepsValid(s: Store, circle: CircleId, requester: UserId, username: string,
                              draws: seq<Code>, reply: Reply<InvitationsBreakdown>)
    requires Valid(s) && WellFormedDraws(draws)
    requires circle < |s.circles| && requester < |s.users|
    requires Invitations(s, circle, requester, username, draws) == Success(reply)
    ensures Valid(reply.store)
  {
    var k := GetMember(s, circle, username).value;
    var remaining := s.memberships[k].remainingInvitations;
    var need := Shortfall(s.invitations, circle, requester, remaining);
    var m := TopUp(s.invitations, circle, requester, remaining, draws).value;
    MintKeepsCodesUnique(s.invitations, requester, circle, need, draws);
    AppendRowsValid(s.invitations, NewRows(m.codes, requester, circle), |s.users|, |s.circles|, requester, circle);
  }

  /** Appending rows by an existing issuer in an existing circle keeps the references in range. */
  lemma AppendRowsValid(before: seq<Invitation>, rows: seq<Invitation>, users: nat, circles: nat,
                        issuer: UserId, circle: CircleId)
    requires InvitationsValid(before, users, circles) && CodesUnique(before + rows)
    requires issuer < users && circle < circles
    requires forall j :: 0 <= j < |rows| ==> rows[j].issuedBy == issuer && rows[j].circle == circle
    ensures InvitationsValid(before + rows, users, circles)
  {
    var t := before + rows;
    forall i | 0 <= i < |t|
      ensures t[i].issuedBy < users && t[i].circle < circles
    {
      if i >= |before| {
        assert t[i] == rows[i - |before|];
      }
    }
  }

  /**
   * A second breakdown right after a successful one mints nothing, whatever the
   * generator would draw, and responds with the same codes and members.
   */
  lemma InvitationsIdempotent(s: Store, circle: CircleId, requester: UserId, username: string,
                              draws: seq<Code>, moreDraws: seq<Code>, reply: Reply<InvitationsBreakdown>)
    requires Valid(s) && WellFormedDraws(draws) && WellFormedDraws(moreDraws)
    requires circle < |s.circles| && requester < |s.users|
    requires Invitations(s, circle, requester, username, draws) == Success(reply)
    ensures Valid(reply.store)
    ensures Invitations(reply.store, circle, requester, username, moreDraws) == Success(reply)
  {
    var t := reply.store;
    InvitationsKeepsValid(s, circle, requester, username, draws, reply);
    var k := GetMember(s, circle, username).value;
    assert t.memberships == s.memberships && t.users == s.users;
    assert IsNamedMember(t, t.memberships[k], circle, username);
    assert GetMember(t, circle, username) == Some(k);
    var remaining := s.memberships[k].remainingInvitations;
    InvitationsReply(s, circle, requester, username, draws, k, reply);
    var minted := Minted(t.invitations, [], moreDraws);
    assert TopUp(t.invitations, circle, requester, remaining, moreDraws) == Success(minted);
    InvitationsViaTopUp(t, circle, requester, username, moreDraws, k, minted);
    assert t.(invitations := t.invitations) == t;
    assert UnusedCodes(t.invitations, circle, requester) + [] == reply.body.invitations;
    assert InvitedMembers(t, circle, requester) == InvitedMembers(s, circle, requester);
  }

  /**
   * The breakdown of the named member `k` is determined by the top-up: whatever
   * the top-up mints is appended to the table and listed after the unused codes.
   */
  lemma InvitationsViaTopUp(s: Store, circle: CircleId, requester: UserId, username: string,
                            draws: seq<Code>, k: nat, minted: Minted)
    requires Valid(s) && WellFormedDraws(draws)
    requires k < |s.memberships| && IsNamedMember(s, s.memberships[k], circle, username)
    requires TopUp(s.invitations, circle, requester, s.memberships[k].remainingInvitations, draws) == Success(minted)
    ensures Invitations(s, circle, requester, username, draws)
         == Success(Reply(s.(invitations := minted.table),
                          InvitationsBreakdown(InvitedMembers(s, circle, requester),
                                               UnusedCodes(s.invitations, circle, requester) + minted.codes)))
  {
    assert GetMember(s, circle, username) == Some(k);
  }

  /** Rows appended after `before` are issued by `issuer`; with none issued by it before, exactly those are. */
  lemma IssuedOnlyByNewRows(before: seq<Invitation>, codes: seq<Code>, issuer: UserId, circle: CircleId)
    requires forall i :: 0 <= i < |before| ==> before[i].issuedBy != issuer
    ensures var t := before + NewRows(codes, issuer, circle);
      forall i :: 0 <= i < |t| ==> (t[i].issuedBy == issuer <==> i >= |before|)
  {
    var rows := NewRows(codes, issuer, circle);
    var t := before + rows;
    forall i | |before| <= i < |t|
      ensures t[i].issuedBy == issuer
    {
      assert t[i] == rows[i - |before|];
    }
  }

  /**
   * The first breakdown of a member who has issued nothing yet: with enough
   * distinct, unused draws it creates exactly `remaining_invitations` rows, all
   * issued by the caller, and responds with their codes, the first draws in order.
   */
  lemma InvitationsFirstCall(s: Store, circle: CircleId, requester: UserId, username: string,
                             draws: seq<Code>, k: nat)
    requires Valid(s) && WellFormedDraws(draws)
    requires k < |s.memberships| && IsNamedMember(s, s.memberships[k], circle, username)
    requires forall i :: 0 <= i < |s.invitations| ==> s.invitations[i].issuedBy != requester
    requires s.memberships[k].remainingInvitations <= |draws|
    requires forall j :: 0 <= j < |draws| ==> draws[j] !in CodesOf(s.invitations)
    requires forall j, l :: 0 <= j < l < |draws| ==> draws[j] != draws[l]
    ensures Invitations(s, circle, requester, username, draws).Success?
    ensures var reply := Invitations(s, circle, requester, username, draws).value;
      var n := s.memberships[k].remainingInvitations;
      && reply.store.invitations == s.invitations + NewRows(draws[..n], requester, circle)
      && reply.body.invitations == draws[..n]
  {
    var n := s.memberships[k].remainingInvitations;
    UnusedCodesNone(s.invitations, circle, requester);
    assert Shortfall(s.invitations, circle, requester, n) == n;
    MintTakesFreshDraws(s.invitations, requester, circle, n, draws);
    var minted := Minted(s.invitations + NewRows(draws[..n], requester, circle), draws[..n], draws[n..]);
    assert TopUp(s.invitations, circle, requester, n, draws) == Success(minted);
    InvitationsViaTopUp(s, circle, requester, username, draws, k, minted);
    assert [] + draws[..n] == draws[..n];
  }

  /**
   * After that first call the caller has issued exactly `remaining_invitations`
   * rows: the appended ones and no others.
   */
  lemma InvitationsFirstCallCount(s: Store, circle: CircleId, requester: UserId, username: string,
                                  draws: seq<Code>, k: nat)
    requires Valid(s) && WellFormedDraws(draws)
    requires k < |s.memberships| && IsNamedMember(s, s.memberships[k], circle, username)
    requires forall i :: 0 <= i < |s.invitations| ==> s.invitations[i].issuedBy != requester
    requires s.memberships[k].remainingInvitations <= |draws|
    requires forall j :: 0 <= j < |draws| ==> draws[j] !in CodesOf(s.invitations)
    requires forall j, l :: 0 <= j < l < |draws| ==> draws[j] != draws[l]
    ensures Invitations(s, circle, requester, username, draws).Success?
    ensures var t := Invitations(s, circle, requester, username, draws).value.store;
      && |t.invitations| == |s.invitations| + s.memberships[k].remainingInvitations
      && forall i :: 0 <= i < |t.invitations| ==> (t.invitations[i].issuedBy == requester <==> i >= |s.invitations|)
  {
    InvitationsFirstCall(s, circle, requester, username, draws, k);
    var n := s.memberships[k].remainingInvitations;
    IssuedOnlyByNewRows(s.invitations, draws[..n], requester, circle);
  }
}

=== FILE: permissions.dfy ===
/** The permission classes the views attach to their actions. */
module Permissions {

  /**
   * One constructor per permission class. Only `IsCircleAdmin` and `IsRideOwner`
   * are modelled as decisions (in CirclePermissions and RidePermissions); the
   * others appear here by name only.
   */
  datatype Permission =
    | AllowAny
    | IsAuthenticated
    | IsAccountOwner
    | IsCircleAdmin
    | IsActiveCircleMember
    | IsAdminOrMembershipOwner
    | IsSelfMember
    | IsRideOwner
}

=== FILE: ride_permissions.dfy ===
/** The ride-owner permission: may the requester change this ride? */
module RidePermissions {
  import opened Store
  import RideSerializer

  /** `IsRideOwner.has_object_permission`: only the user who offered the ride. */
  function IsRideOwner(requester: UserId, ride: Ride): (r: bool)
    ensures r <==> requester == ride.offeredBy
  {
    requester == ride.offeredBy
  }

  /** The decision reads `offered_by` and nothing else of the ride. */
  lemma OwnerDependsOnlyOnOfferedBy(requester: UserId, a: Ride, b: Ride)
    requires a.offeredBy == b.offeredBy
    ensures IsRideOwner(requester, a) == IsRideOwner(requester, b)
  {
  }

  /** The user who offered a ride owns it, and nobody else does. */
  lemma OffererOwnsOfferedRide(s: Store, circle: CircleId, requester: UserId,
                               attrs: RideSerializer.RideAttrs, now: Time, user: UserId)
    requires Valid(s) && circle < |s.circles|
    requires RideSerializer.Offer(s, circle, requester, attrs, now).Success?
    ensures IsRideOwner(user, RideSerializer.Offer(s, circle, requester, attrs, now).value.body) <==> user == requester
  {
  }
}

=== FILE: rides.dfy ===
/**
 * Offering a ride in a circle: the create-ride serializer's field checks, its
 * cross-field validation and the creation that bumps the three `rides_offered`
 * counters (circle, membership, profile) together.
 */
module RideSerializer {
  import opened Wrappers
  import opened Store
  import opened Seqs

  /** A departure must be at least this many seconds after the request: ten minutes. */
  const LEAD_TIME: int := 600

  /** Bounds of the `available_seats` field. */
  const MIN_SEATS: int := 1
  const MAX_SEATS: int := 15

  /** The writable fields of a ride offer; `offered_in`, passengers, rating and `is_active` are excluded. */
  datatype RideDraft = RideDraft(
    departureLocation: string,
    departureDate: Time,
    arrivalLocation: string,
    arrivalDate: Time,
    availableSeats: int,
    comments: string)

  /** What `validate` receives: the draft plus the hidden `offered_by`. */
  datatype RideAttrs = RideAttrs(offeredBy: UserId, draft: RideDraft)

  /**
   * Why an offer is refused. Field errors are reported together, one flag per
   * failing field; the other three come from `validate` and stop at the first.
   */
  datatype RideError =
    | FieldErrors(seats: bool, departure: bool)
    | OfferedOnBehalf
    | NotActiveMember
    | ArrivalNotAfterDeparture

  predicate SeatsValid(seats: int) {
    MIN_SEATS <= seats <= MAX_SEATS
  }

  /** `validate_departure_date`: rejected only when strictly earlier than `now` plus the lead time. */
  predicate DepartureValid(departure: Time, now: Time) {
    !(departure < now + LEAD_TIME)
  }

  /** The hidden `offered_by` field always takes the requesting user; clients cannot set it. */
  function AttrsOf(requester: UserId, draft: RideDraft): (r: RideAttrs)
    ensures r.offeredBy == requester && r.draft == draft
  {
    RideAttrs(requester, draft)
  }

  /** `Membership.objects.get(user=…, circle=…, is_active=True)`: the row index, if any. */
  function ActiveMembership(s: Store, user: UserId, circle: CircleId): (r: Option<nat>)
    requires Valid(s)
    ensures r.Some? ==> r.value < |s.memberships| && IsActiveMembership(s.memberships[r.value], user, circle)
    ensures r.Some? ==> forall k :: 0 <= k < |s.memberships| && IsActiveMembership(s.memberships[k], user, circle)
                                    ==> k == r.value
    ensures r.None? <==> forall k :: 0 <= k < |s.memberships| ==> !IsActiveMembership(s.memberships[k], user, circle)
  {
    var r := Find(s.memberships, m => IsActiveMembership(m, user, circle));
    if r.Some? then
      forall k | 0 <= k < |s.memberships| && IsActiveMembership(s.memberships[k], user, circle)
        ensures k == r.value
      {
        ActiveMembershipUnique(s, user, circle, k, r.value);
      }
      r
    else r
  }

  lemma ActiveMembershipUnique(s: Store, user: UserId, circle: CircleId, k: nat, l: nat)
    requires Valid(s)
    requires k < |s.memberships| && IsActiveMembership(s.memberships[k], user, circle)
    requires l < |s.memberships| && IsActiveMembership(s.memberships[l], user, circle)
    ensures k == l
  {
    if k != l {
      assert false;
    }
  }

  /**
   * Field validation, then `validate`: the outcome is either an error or the index
   * of the offering user's active membership in `circle`.
   */
  function ValidateOffer(s: Store, circle: CircleId, requester: UserId, attrs: RideAttrs, now: Time)
    : (r: Result<nat, RideError>)
    requires Valid(s)
    ensures r.Success? ==> r.value < |s.memberships| && IsActiveMembership(s.memberships[r.value], attrs.offeredBy, circle)
    ensures r.Failure? && r.error.FieldErrors? ==> r.error.seats || r.error.departure
  {
    var seatsBad := !SeatsValid(attrs.draft.availableSeats);
    var departureBad := !DepartureValid(attrs.draft.departureDate, now);
    if seatsBad || departureBad then Failure(FieldErrors(seatsBad, departureBad))
    else if requester != attrs.offeredBy then Failure(OfferedOnBehalf)
    else match ActiveMembership(s, attrs.offeredBy, circle)
      case None => Failure(NotActiveMember)
      case Some(k) =>
        if attrs.draft.arrivalDate <= attrs.draft.departureDate then Failure(ArrivalNotAfterDeparture)
        else Success(k)
  }

  /**
   * `create`: the ride is stored under the next id in the context circle, active
   * and without passengers, and the circle's, the membership's and the offering
   * user's profile's `rides_offered` each go up by one.
   */
  function CreateRide(s: Store, circle: CircleId, k: nat, attrs: RideAttrs): (r: Reply<Ride>)
    requires k < |s.memberships| && circle < |s.circles| && attrs.offeredBy < |s.profiles|
    ensures r.store.rides == s.rides + [r.body]
  {
    var d := attrs.draft;
    var ride := Ride(|s.rides|, attrs.offeredBy, circle, d.departureLocation, d.departureDate,
                     d.arrivalLocation, d.arrivalDate, d.availableSeats, d.comments, {}, true);
    var c := s.circles[circle];
    var m := s.memberships[k];
    var p := s.profiles[attrs.offeredBy];
    var t := s.(rides := s.rides + [ride],
                circles := s.circles[circle := c.(ridesOffered := c.ridesOffered + 1)],
                memberships := s.memberships[k := m.(ridesOffered := m.ridesOffered + 1)],
                profiles := s.profiles[attrs.offeredBy := p.(ridesOffered := p.ridesOffered + 1)]);
    Reply(t, ride)
  }

  /** The whole offer: validation, then creation with the membership `validate` found. */
  function Offer(s: Store, circle: CircleId, requester: UserId, attrs: RideAttrs, now: Time)
    : (r: Result<Reply<Ride>, RideError>)
    requires Valid(s) && circle < |s.circles|
    ensures r.Success? ==> |r.value.store.rides| == |s.rides| + 1 && r.value.body == r.value.store.rides[|s.rides|]
    ensures r.Success? ==> r.value.body.offeredIn == circle && r.value.body.offeredBy == requester
  {
    var k :- ValidateOffer(s, circle, requester, attrs, now);
    Success(CreateRide(s, circle, k, attrs))
  }

  /** All the conditions under which an offer goes through, stated without the check order. */
  predicate OfferAcceptable(s: Store, circle: CircleId, requester: UserId, attrs: RideAttrs, now: Time) {
    && SeatsValid(attrs.draft.availableSeats)
    && attrs.draft.departureDate >= now + LEAD_TIME
    && attrs.offeredBy == requester
    && (exists k :: 0 <= k < |s.memberships| && IsActiveMembership(s.memberships[k], requester, circle))
    && attrs.draft.arrivalDate > attrs.draft.departureDate
  }

  /** An offer succeeds exactly when every condition holds. */
  lemma OfferSucceedsIff(s: Store, circle: CircleId, requester: UserId, attrs: RideAttrs, now: Time)
    requires Valid(s) && circle < |s.circles|
    ensures Offer(s, circle, requester, attrs, now).Success? <==> OfferAcceptable(s, circle, requester, attrs, now)
  {
    if OfferAcceptable(s, circle, requester, attrs, now) {
      var k :| 0 <= k < |s.memberships| && IsActiveMembership(s.memberships[k], requester, circle);
      assert ActiveMembership(s, requester, circle).Some?;
    }
  }

  /**
   * The error reported is the first failing check: bad fields (all of them), then
   * identity, then membership, then the arrival/departure order.
   */
  lemma OfferFirstFailure(s: Store, circle: CircleId, requester: UserId, attrs: RideAttrs, now: Time)
    requires Valid(s) && circle < |s.circles|
    ensures var r := Offer(s, circle, requester, attrs, now);
      var seatsBad := attrs.draft.availableSeats < 1 || attrs.draft.availableSeats > 15;
      var departureBad := attrs.draft.departureDate < now + 600;
      var member := exists k :: 0 <= k < |s.memberships| && IsActiveMembership(s.memberships[k], attrs.offeredBy, circle);
      && (seatsBad || departureBad ==> r == Failure(FieldErrors(seatsBad, departureBad)))
      && (!seatsBad && !departureBad && attrs.offeredBy != requester ==> r == Failure(OfferedOnBehalf))
      && (!seatsBad && !departureBad && attrs.offeredBy == requester && !member ==> r == Failure(NotActiveMember))
      && ((!seatsBad && !departureBad && attrs.offeredBy == requester && member
           && attrs.draft.arrivalDate <= attrs.draft.departureDate) ==> r == Failure(ArrivalNotAfterDeparture))
  {
    if exists k :: 0 <= k < |s.memberships| && IsActiveMembership(s.memberships[k], attrs.offeredBy, circle) {
      var k :| 0 <= k < |s.memberships| && IsActiveMembership(s.memberships[k], attrs.offeredBy, circle);
      assert ActiveMembership(s, attrs.offeredBy, circle).Some?;
    }
  }

  /** Through the serializer the identity check never fails: `offered_by` is always the requester. */
  lemma HiddenOfferedByNeverOnBehalf(s: Store, circle: CircleId, requester: UserId, draft: RideDraft, now: Time)
    requires Valid(s) && circle < |s.circles|
    ensures Offer(s, circle, requester, AttrsOf(requester, draft), now) != Failure(OfferedOnBehalf)
  {
  }

  /**
   * A successful offer adds exactly one `rides_offered` to the circle, to the
   * membership and to the profile, and changes nothing else: no other row, no
   * other field, `rides_taken` included, and the users and invitations tables
   * stay as they were.
   */
  lemma OfferBumpsOfferedCounters(s: Store, circle: CircleId, requester: UserId, attrs: RideAttrs, now: Time,
                                  reply: Reply<Ride>)
    requires Valid(s) && circle < |s.circles|
    requires Offer(s, circle, requester, attrs, now) == Success(reply)
    ensures var t := reply.store;
      && t.users == s.users && t.invitations == s.invitations
      && |t.circles| == |s.circles| && |t.memberships| == |s.memberships| && |t.profiles| == |s.profiles|
      && t.rides == s.rides + [reply.body]
      && t.circles[circle].ridesOffered == s.circles[circle].ridesOffered + 1
      && t.circles[circle].(ridesOffered := s.circles[circle].ridesOffered) == s.circles[circle]
      && t.profiles[requester].ridesOffered == s.profiles[requester].ridesOffered + 1
      && t.profiles[requester].(ridesOffered := s.profiles[requester].ridesOffered) == s.profiles[requester]
      && (forall c :: 0 <= c < |s.circles| && c != circle ==> t.circles[c] == s.circles[c])
      && (forall u :: 0 <= u < |s.profiles| && u != requester ==> t.profiles[u] == s.profiles[u])
    ensures exists k ::
      && 0 <= k < |s.memberships| && IsActiveMembership(s.memberships[k], requester, circle)
      && reply.store.memberships[k].ridesOffered == s.memberships[k].ridesOffered + 1
      && reply.store.memberships[k].(ridesOffered := s.memberships[k].ridesOffered) == s.memberships[k]
      && (forall l :: 0 <= l < |s.memberships| && l != k ==> reply.store.memberships[l] == s.memberships[l])
  {
    var k := ValidateOffer(s, circle, requester, attrs, now).value;
    assert reply.store.memberships[k].ridesOffered == s.memberships[k].ridesOffered + 1;
  }

  /** The stored ride carries the draft's fields, lives in the context circle, is active and has no passengers. */
  lemma OfferStoresDraft(s: Store, circle: CircleId, requester: UserId, attrs: RideAttrs, now: Time,
                         reply: Reply<Ride>)
    requires Valid(s) && circle < |s.circles|
    requires Offer(s, circle, requester, attrs, now) == Success(reply)
    ensures var ride := reply.body; var d := attrs.draft;
      && ride.id == |s.rides| && ride.offeredBy == requester && ride.offeredIn == circle
      && ride.departureLocation == d.departureLocation && ride.departureDate == d.departureDate
      && ride.arrivalLocation == d.arrivalLocation && ride.arrivalDate == d.arrivalDate
      && ride.availableSeats == d.availableSeats && ride.comments == d.comments
      && ride.passengers == {} && ride.isActive
      && MIN_SEATS <= ride.availableSeats <= MAX_SEATS
      && ride.departureDate >= now + LEAD_TIME && ride.arrivalDate > ride.departureDate
  {
  }

  /** An offer keeps the store's invariants. */
  lemma OfferKeepsValid(s: Store, circle: CircleId, requester: UserId, attrs: RideAttrs, now: Time,
                        reply: Reply<Ride>)
    requires Valid(s) && circle < |s.circles|
    requires Offer(s, circle, requester, attrs, now) == Success(reply)
    ensures Valid(reply.store)
  {
    OfferBumpsOfferedCounters(s, circle, requester, attrs, now, reply);
    var t := reply.store;
    assert UsersValid(t.users, t.profiles) by {
      assert forall i :: 0 <= i < |t.profiles| ==> t.profiles[i].user == s.profiles[i].user;
    }
    assert CirclesValid(t.circles) by {
      assert forall i :: 0 <= i < |t.circles| ==>
        t.circles[i].id == s.circles[i].id && t.circles[i].slugName == s.circles[i].slugName;
    }
    assert MembershipsValid(t.memberships, |t.users|, |t.circles|) by {
      assert forall l :: 0 <= l < |t.memberships| ==>
        && t.memberships[l].user == s.memberships[l].user
        && t.memberships[l].circle == s.memberships[l].circle
        && t.memberships[l].isActive == s.memberships[l].isActive;
    }
    assert RidesValid(t.rides, |t.users|, |t.circles|) by {
      assert forall i :: 0 <= i < |s.rides| ==> t.rides[i] == s.rides[i];
    }
  }
}

=== FILE: seqs.dfy ===
/** Query helpers over table rows: the ORM's `filter()` on an in-memory table. */
module Seqs {
  import opened Wrappers

  /** How many rows of `s` satisfy `p`. */
  function Count<T>(s: seq<T>, p: T -> bool): nat {
    if |s| == 0 then 0 else (if p(s[0]) then 1 else 0) + Count(s[1..], p)
  }

  /** The rows of `s` that satisfy `p`, in table order: one entry per matching row. */
  function Filter<T>(s: seq<T>, p: T -> bool): (r: seq<T>)
    ensures |r| == Count(s, p)
    ensures |r| <= |s|
    ensures forall i :: 0 <= i < |r| ==> p(r[i])
    ensures forall i :: 0 <= i < |s| ==> (s[i] in r <==> p(s[i]))
    ensures forall i :: 0 <= i < |r| ==> r[i] in s
  {
    if |s| == 0 then []
    else if p(s[0]) then [s[0]] + Filter(s[1..], p)
    else Filter(s[1..], p)
  }

  /** The position of the first row of `s` that satisfies `p`: the ORM's `get()` when at most one row matches. */
  function Find<T>(s: seq<T>, p: T -> bool): (r: Option<nat>)
    ensures r.Some? ==> r.value < |s| && p(s[r.value])
    ensures r.Some? ==> forall j :: 0 <= j < r.value ==> !p(s[j])
    ensures r.None? <==> forall j :: 0 <= j < |s| ==> !p(s[j])
  {
    if |s| == 0 then None
    else if p(s[0]) then Some(0)
    else match Find(s[1..], p)
      case None => None
      case Some(k) => Some(k + 1)
  }
}

=== FILE: store.dfy ===
/**
 * The relational store behind the circles, rides and users apps, as immutable tables.
 * Rows of `users`, `profiles`, `circles` and `rides` sit at the index equal to their
 * primary key; `memberships` and `invitations` are kept in insertion order.
 */
module Store {
  import opened Wrappers

  type UserId = nat
  type CircleId = nat
  type RideId = nat

  /** An invitation code. */
  type Code = string

  /** A point in time, in seconds. */
  type Time = int

  datatype User = User(id: UserId, username: string, isActive: bool, isClient: bool)

  /** The one-to-one ride statistics of a user. */
  datatype Profile = Profile(user: UserId, ridesOffered: nat, ridesTaken: nat)

  datatype Circle = Circle(
    id: CircleId,
    name: string,
    slugName: string,
    about: string,
    ridesOffered: nat,
    ridesTaken: nat,
    verified: bool,
    isPublic: bool,
    isLimited: bool,
    membersLimit: nat)

  /** The (user, circle) join row: role, quota, activity flag and per-circle stats. */
  datatype Membership = Membership(
    user: UserId,
    circle: CircleId,
    invitedBy: Option<UserId>,
    isAdmin: bool,
    isActive: bool,
    remainingInvitations: nat,
    ridesOffered: nat,
    ridesTaken: nat)

  datatype Invitation = Invitation(code: Code, issuedBy: UserId, circle: CircleId, used: bool)

  datatype Ride = Ride(
    id: RideId,
    offeredBy: UserId,
    offeredIn: CircleId,
    departureLocation: string,
    departureDate: Time,
    arrivalLocation: string,
    arrivalDate: Time,
    availableSeats: int,
    comments: string,
    passengers: set<UserId>,
    isActive: bool)

  datatype Store = Store(
    users: seq<User>,
    profiles: seq<Profile>,
    circles: seq<Circle>,
    memberships: seq<Membership>,
    invitations: seq<Invitation>,
    rides: seq<Ride>)

  /** What a handler leaves behind: the store after the request and the data it responds with. */
  datatype Reply<T> = Reply(store: Store, body: T)

  /** Clamps a difference at zero, as `range(0, diff)` does for a negative `diff`. */
  function Max0(x: int): (r: nat)
    ensures r >= x && (r == 0 || r == x)
  {
    if x > 0 then x else 0
  }

  /** Every code stored in the invitations table. */
  function CodesOf(invitations: seq<Invitation>): (r: set<Code>)
    ensures forall i :: 0 <= i < |invitations| ==> invitations[i].code in r
  {
    if |invitations| == 0 then {}
    else
      var init := invitations[..|invitations| - 1];
      assert forall i :: 0 <= i < |init| ==> init[i] == invitations[i];
      CodesOf(init) + {invitations[|invitations| - 1].code}
  }

  /** The invitation code column is unique. */
  predicate CodesUnique(invitations: seq<Invitation>) {
    forall i, j :: 0 <= i < j < |invitations| ==> invitations[i].code != invitations[j].code
  }

  /** Every invitation names an existing issuer and circle, and no two share a code. */
  predicate InvitationsValid(invitations: seq<Invitation>, users: nat, circles: nat) {
    && (forall k :: 0 <= k < |invitations| ==> invitations[k].issuedBy < users && invitations[k].circle < circles)
    && CodesUnique(invitations)
  }

  /** Row `m` is an active membership of `user` in `circle`. */
  predicate IsActiveMembership(m: Membership, user: UserId, circle: CircleId) {
    m.user == user && m.circle == circle && m.isActive
  }

  /** Users sit at their id, usernames are unique, and each user has the profile at the same index. */
  predicate UsersValid(users: seq<User>, profiles: seq<Profile>) {
    && (forall i :: 0 <= i < |users| ==> users[i].id == i)
    && (forall i, j :: 0 <= i < j < |users| ==> users[i].username != users[j].username)
    && |profiles| == |users|
    && (forall i :: 0 <= i < |profiles| ==> profiles[i].user == i)
  }

  /** Circles sit at their id and slugs are unique. */
  predicate CirclesValid(circles: seq<Circle>) {
    && (forall i :: 0 <= i < |circles| ==> circles[i].id == i)
    && (forall i, j :: 0 <= i < j < |circles| ==> circles[i].slugName != circles[j].slugName)
  }

  /** Memberships name existing users and circles, and a user is active in a circle at most once. */
  predicate MembershipsValid(memberships: seq<Membership>, users: nat, circles: nat) {
    && (forall k :: 0 <= k < |memberships| ==> memberships[k].user < users && memberships[k].circle < circles)
    && (forall k, l :: 0 <= k < l < |memberships| && memberships[k].isActive && memberships[l].isActive ==>
          memberships[k].user != memberships[l].user || memberships[k].circle != memberships[l].circle)
  }

  /** Rides sit at their id and name an existing offering user and circle. */
  predicate RidesValid(rides: seq<Ride>, users: nat, circles: nat) {
    forall i :: 0 <= i < |rides| ==> rides[i].id == i && rides[i].offeredBy < users && rides[i].offeredIn < circles
  }

  /** The invariants every request finds and leaves behind. */
  predicate Valid(s: Store) {
    && UsersValid(s.users, s.profiles)
    && CirclesValid(s.circles)
    && MembershipsValid(s.memberships, |s.users|, |s.circles|)
    && InvitationsValid(s.invitations, |s.users|, |s.circles|)
    && RidesValid(s.rides, |s.users|, |s.circles|)
  }

  /** Adding one row adds exactly its code to the code column. */
  lemma CodesOfAppend(invitations: seq<Invitation>, row: Invitation)
    ensures CodesOf(invitations + [row]) == CodesOf(invitations) + {row.code}
  {
    assert (invitations + [row])[..|invitations|] == invitations;
  }
}

=== FILE: users.dfy ===
/**
 * The user views: the permission map per action, the active-client lookup by
 * username, the `profile` action's partial flag, and the circles `retrieve` adds
 * to a user's details.
 */
module UserViews {
  import opened Wrappers
  import opened Store
  import opened Seqs
  import opened Permissions
  import Circles

  datatype UserError = NotFound | MethodNotAllowed

  // ---------------------------------------------------------------- permissions

  /**
   * `get_permissions` as written: the three account-lifecycle actions are public,
   * `retrieve`, `update` and `partial_update` need the account owner, and every
   * other action, `profile` included, needs only an authenticated user.
   */
  function ActionPermissions(action: string): (r: seq<Permission>)
    ensures AllowAny in r <==> action in ["login", "signup", "verify"]
    ensures IsAuthenticated in r <==> action !in ["login", "signup", "verify"]
    ensures IsAccountOwner in r <==> action in ["retrieve", "update", "partial_update"]
    ensures forall p :: p in r ==> p == AllowAny || p == IsAuthenticated || p == IsAccountOwner
  {
    if action in ["login", "signup", "verify"] then [AllowAny]
    else if action in ["retrieve", "update", "partial_update"] then [IsAuthenticated, IsAccountOwner]
    else [IsAuthenticated]
  }

  /** The actions that read or change one user's account data. */
  predicate TouchesAccount(action: string) {
    action in ["retrieve", "update", "partial_update", "profile"]
  }

  /**
   * As written, `profile` (which updates the profile of the user named in the URL)
   * falls into the last branch: any authenticated user may edit any user's profile.
   */
  lemma ProfileLacksOwnerCheck()
    ensures TouchesAccount("profile")
    ensures ActionPermissions("profile") == [IsAuthenticated]
    ensures IsAccountOwner !in ActionPermissions("profile")
  {
  }

  /** The permission map with `profile` guarded like the other account actions. */
  function ActionPermissionsCorrected(action: string): (r: seq<Permission>)
    ensures AllowAny in r <==> action in ["login", "signup", "verify"]
    ensures IsAuthenticated in r <==> action !in ["login", "signup", "verify"]
    ensures forall p :: p in r ==> p == AllowAny || p == IsAuthenticated || p == IsAccountOwner
  {
    if action in ["login", "signup", "verify"] then [AllowAny]
    else if TouchesAccount(action) then [IsAuthenticated, IsAccountOwner]
    else [IsAuthenticated]
  }

  /**
   * With the correction every action on one account's data requires its owner,
   * and every other action keeps exactly the permissions it had.
   */
  lemma OwnerGuardsAccountActions(action: string)
    ensures IsAccountOwner in ActionPermissionsCorrected(action) <==> TouchesAccount(action)
    ensures action != "profile" ==> ActionPermissionsCorrected(action) == ActionPermissions(action)
  {
  }

  // ---------------------------------------------------------------- lookup

  predicate IsActiveClient(u: User) {
    u.isActive && u.isClient
  }

  /** The view's queryset: active client users only, in the store's row order. */
  function ActiveClients(s: Store): (r: seq<User>)
    ensures forall i :: 0 <= i < |r| ==> IsActiveClient(r[i]) && r[i] in s.users
    ensures forall i :: 0 <= i < |s.users| ==> (s.users[i] in r <==> IsActiveClient(s.users[i]))
  {
    Filter(s.users, IsActiveClient)
  }

  /** `get_object` by `username` within that queryset: a deactivated or staff user is not found. */
  function GetUser(s: Store, username: string): (r: Option<UserId>)
    requires Valid(s)
    ensures r.Some? ==> r.value < |s.users| && s.users[r.value].username == username
                        && IsActiveClient(s.users[r.value])
    ensures r.None? <==> forall i :: 0 <= i < |s.users| ==>
                           !(s.users[i].username == username && IsActiveClient(s.users[i]))
  {
    Find(s.users, (u: User) => u.username == username && IsActiveClient(u))
  }

  /** Usernames are unique, so the user found is the one user with that name. */
  lemma GetUserIsTheNamedUser(s: Store, i: UserId)
    requires Valid(s) && i < |s.users|
    ensures GetUser(s, s.users[i].username) == (if IsActiveClient(s.users[i]) then Some(i) else None)
  {
    var r := GetUser(s, s.users[i].username);
    if r.Some? && r.value != i {
      assert false;
    }
  }

  // ---------------------------------------------------------------- profile

  /** How the `profile` action will update the profile: whose, and whether partially. */
  datatype ProfileEdit = ProfileEdit(user: UserId, partial: bool)

  /**
   * The `profile` action: only PUT and PATCH are routed to it; it looks the user
   * up and updates partially exactly for PATCH.
   */
  function ProfileRequest(s: Store, username: string, httpMethod: string): (r: Result<ProfileEdit, UserError>)
    requires Valid(s)
    ensures r.Success? ==> GetUser(s, username) == Some(r.value.user)
    ensures r.Success? ==> (r.value.partial <==> httpMethod == "PATCH")
    ensures r == Failure(MethodNotAllowed) <==> httpMethod != "PUT" && httpMethod != "PATCH"
    ensures r == Failure(NotFound) <==> (httpMethod == "PUT" || httpMethod == "PATCH") && GetUser(s, username).None?
  {
    if httpMethod != "PUT" && httpMethod != "PATCH" then Failure(MethodNotAllowed)
    else match GetUser(s, username)
      case None => Failure(NotFound)
      case Some(u) => Success(ProfileEdit(u, httpMethod == "PATCH"))
  }

  // ---------------------------------------------------------------- retrieve

  /** The circle of each membership row in `ms`, one entry per row. */
  function CirclesOf(s: Store, ms: seq<Membership>): (r: seq<Circle>)
    requires forall i :: 0 <= i < |ms| ==> ms[i].circle < |s.circles|
    ensures |r| == |ms|
    ensures forall i :: 0 <= i < |ms| ==> r[i] == s.circles[ms[i].circle]
  {
    seq(|ms|, i requires 0 <= i < |ms| => s.circles[ms[i].circle])
  }

  predicate IsRowOf(user: UserId, m: Membership) {
    m.user == user
  }

  predicate IsActiveRowOf(user: UserId, m: Membership) {
    m.user == user && m.isActive
  }

  /** Every membership row of `user`: what `filter(members=user)` joins through. */
  function RowsOf(ms: seq<Membership>, user: UserId): (r: seq<Membership>)
    ensures forall i :: 0 <= i < |r| ==> r[i] in ms && r[i].user == user
    ensures forall k :: 0 <= k < |ms| && ms[k].user == user ==> ms[k] in r
  {
    Filter(ms, m => IsRowOf(user, m))
  }

  /** The active membership rows of `user`. */
  function ActiveRowsOf(ms: seq<Membership>, user: UserId): (r: seq<Membership>)
    ensures forall i :: 0 <= i < |r| ==> r[i] in ms && r[i].user == user && r[i].isActive
    ensures forall k :: 0 <= k < |ms| && ms[k].user == user && ms[k].isActive ==> ms[k] in r
  {
    Filter(ms, m => IsActiveRowOf(user, m))
  }

  /**
   * The circles `retrieve` lists, as written: `members__is_active` is the user's
   * own flag, not the membership's, so every membership row of an active requester
   * counts, a left circle included and a circle with two rows twice.
   */
  function RetrieveCirclesAsWritten(s: Store, requester: UserId): (r: seq<Circle>)
    requires Valid(s) && requester < |s.users|
    ensures Circles.Ordered(r)
    ensures !s.users[requester].isActive ==> r == []
    ensures s.users[requester].isActive ==> multiset(r) == multiset(CirclesOf(s, RowsOf(s.memberships, requester)))
  {
    if s.users[requester].isActive then Circles.SortCircles(CirclesOf(s, RowsOf(s.memberships, requester)))
    else []
  }

  /** The circles `retrieve` is meant to list: those where the requester's membership is active. */
  function RetrieveCircles(s: Store, requester: UserId): (r: seq<Circle>)
    requires Valid(s) && requester < |s.users|
    ensures Circles.Ordered(r)
    ensures multiset(r) == multiset(CirclesOf(s, ActiveRowsOf(s.memberships, requester)))
  {
    Circles.SortCircles(CirclesOf(s, ActiveRowsOf(s.memberships, requester)))
  }

  /** How many rows of `ms` make `user` an active member of `c`. */
  function ActiveCount(ms: seq<Membership>, user: UserId, c: CircleId): nat
    decreases |ms|
  {
    if |ms| == 0 then 0
    else (if IsActiveMembership(ms[0], user, c) then 1 else 0) + ActiveCount(ms[1..], user, c)
  }

  /** Circle `c` appears among the listed circles once per active row of `user` in it. */
  lemma {:induction false} ListedCountIsActiveCount(s: Store, ms: seq<Membership>, user: UserId, c: CircleId)
    requires forall i :: 0 <= i < |s.circles| ==> s.circles[i].id == i
    requires c < |s.circles|
    requires forall k :: 0 <= k < |ms| ==> ms[k].circle < |s.circles|
    ensures multiset(CirclesOf(s, ActiveRowsOf(ms, user)))[s.circles[c]] == ActiveCount(ms, user, c)
    decreases |ms|
  {
    if |ms| > 0 {
      var x := s.circles[c];
      var rest := ms[1..];
      assert forall k :: 0 <= k < |rest| ==> rest[k] == ms[k + 1];
      ListedCountIsActiveCount(s, rest, user, c);
      var head := if IsActiveRowOf(user, ms[0]) then [ms[0]] else [];
      var a := CirclesOf(s, head);
      var b := CirclesOf(s, ActiveRowsOf(rest, user));
      ActiveRowsOfCons(ms, user);
      CirclesOfAppend(s, head, ActiveRowsOf(rest, user));
      assert multiset(a + b)[x] == multiset(a)[x] + multiset(b)[x];
      HeadRowCount(s, ms[0], user, c);
    }
  }

  /** A single row contributes circle `c` once if it makes `user` active in `c`, and not at all otherwise. */
  lemma HeadRowCount(s: Store, m: Membership, user: UserId, c: CircleId)
    requires forall i :: 0 <= i < |s.circles| ==> s.circles[i].id == i
    requires c < |s.circles| && m.circle < |s.circles|
    ensures multiset(CirclesOf(s, if IsActiveRowOf(user, m) then [m] else []))[s.circles[c]]
         == (if IsActiveMembership(m, user, c) then 1 else 0)
  {
    if IsActiveRowOf(user, m) {
      assert CirclesOf(s, [m]) == [s.circles[m.circle]];
      assert s.circles[m.circle].id == m.circle;
    } else {
      assert CirclesOf(s, []) == [];
    }
  }

  /** With at most one active row of `user` in `c`, the count is at most one, and zero exactly when there is none. */
  lemma {:induction false} ActiveCountAtMostOne(ms: seq<Membership>, user: UserId, c: CircleId)
    requires forall k, l :: 0 <= k < l < |ms| && IsActiveMembership(ms[k], user, c) ==> !IsActiveMembership(ms[l], user, c)
    ensures ActiveCount(ms, user, c) <= 1
    ensures ActiveCount(ms, user, c) == 0 <==> forall k :: 0 <= k < |ms| ==> !IsActiveMembership(ms[k], user, c)
    decreases |ms|
  {
    if |ms| > 0 {
      var rest := ms[1..];
      assert forall k :: 0 <= k < |rest| ==> rest[k] == ms[k + 1];
      ActiveCountAtMostOne(rest, user, c);
      if IsActiveMembership(ms[0], user, c) {
        assert forall k :: 0 <= k < |rest| ==> !IsActiveMembership(rest[k], user, c);
      }
    }
  }

  /**
   * Among rows where `user` is active in `c` at most once, the circle `c` is listed
   * at most once, and listed at all exactly when such a row exists.
   */
  lemma ActiveCircleCount(s: Store, ms: seq<Membership>, user: UserId, c: CircleId)
    requires forall i :: 0 <= i < |s.circles| ==> s.circles[i].id == i
    requires c < |s.circles|
    requires forall k :: 0 <= k < |ms| ==> ms[k].circle < |s.circles|
    requires forall k, l :: 0 <= k < l < |ms| && IsActiveMembership(ms[k], user, c) ==> !IsActiveMembership(ms[l], user, c)
    ensures var n := multiset(CirclesOf(s, ActiveRowsOf(ms, user)))[s.circles[c]];
      && n <= 1
      && (n == 0 <==> forall k :: 0 <= k < |ms| ==> !IsActiveMembership(ms[k], user, c))
  {
    ListedCountIsActiveCount(s, ms, user, c);
    ActiveCountAtMostOne(ms, user, c);
  }

  lemma ActiveRowsOfCons(ms: seq<Membership>, user: UserId)
    requires |ms| > 0
    ensures ActiveRowsOf(ms, user) == (if IsActiveRowOf(user, ms[0]) then [ms[0]] else []) + ActiveRowsOf(ms[1..], user)
  {
  }

  lemma RowsOfCons(ms: seq<Membership>, user: UserId)
    requires |ms| > 0
    ensures RowsOf(ms, user) == (if IsRowOf(user, ms[0]) then [ms[0]] else []) + RowsOf(ms[1..], user)
  {
  }

  lemma CirclesOfAppend(s: Store, a: seq<Membership>, b: seq<Membership>)
    requires forall i :: 0 <= i < |a| ==> a[i].circle < |s.circles|
    requires forall i :: 0 <= i < |b| ==> b[i].circle < |s.circles|
    ensures CirclesOf(s, a + b) == CirclesOf(s, a) + CirclesOf(s, b)
  {
  }

  /** A circle is listed exactly when the requester holds an active membership in it, and then once. */
  lemma RetrieveCirclesExact(s: Store, requester: UserId, c: CircleId)
    requires Valid(s) && requester < |s.users| && c < |s.circles|
    ensures s.circles[c] in RetrieveCircles(s, requester) <==>
      exists k :: 0 <= k < |s.memberships| && IsActiveMembership(s.memberships[k], requester, c)
    ensures multiset(RetrieveCircles(s, requester))[s.circles[c]] <= 1
  {
    assert CirclesValid(s.circles);
    ActiveCircleCount(s, s.memberships, requester, c);
    var r := RetrieveCircles(s, requester);
    assert s.circles[c] in r <==> s.circles[c] in multiset(r);
  }

  /** The user's details plus the circles listed for the requester. */
  datatype UserDetail = UserDetail(user: User, circles: seq<Circle>)

  /**
   * `retrieve` as written: look the user up among active clients, then attach the
   * requester's circles as the `members__is_active` filter lists them.
   */
  function Retrieve(s: Store, requester: UserId, username: string): (r: Result<UserDetail, UserError>)
    requires Valid(s) && requester < |s.users|
    ensures r.Failure? <==> GetUser(s, username).None?
    ensures r.Failure? ==> r.error == NotFound
    ensures r.Success? ==> r.value.user.username == username && IsActiveClient(r.value.user)
    ensures r.Success? ==> r.value.circles == RetrieveCirclesAsWritten(s, requester)
  {
    match GetUser(s, username)
    case None => Failure(NotFound)
    case Some(u) => Success(UserDetail(s.users[u], RetrieveCirclesAsWritten(s, requester)))
  }

  /** `retrieve` as intended: the same lookup, with the circles where the requester's membership is active. */
  function RetrieveCorrected(s: Store, requester: UserId, username: string): (r: Result<UserDetail, UserError>)
    requires Valid(s) && requester < |s.users|
    ensures r.Failure? <==> GetUser(s, username).None?
    ensures r.Failure? ==> r.error == NotFound
    ensures r.Success? ==> r.value.user.username == username && IsActiveClient(r.value.user)
    ensures r.Success? ==> r.value.circles == RetrieveCircles(s, requester)
  {
    match GetUser(s, username)
    case None => Failure(NotFound)
    case Some(u) => Success(UserDetail(s.users[u], RetrieveCircles(s, requester)))
  }

  /**
   * The two versions of `retrieve` find the same user and differ only in the
   * circles: the corrected one lists a circle exactly when the requester is an
   * active member of it, and then once.
   */
  lemma RetrieveVersionsAgreeOnUser(s: Store, requester: UserId, username: string, c: CircleId)
    requires Valid(s) && requester < |s.users| && c < |s.circles|
    ensures Retrieve(s, requester, username).Success? <==> RetrieveCorrected(s, requester, username).Success?
    ensures Retrieve(s, requester, username).Success? ==>
      Retrieve(s, requester, username).value.user == RetrieveCorrected(s, requester, username).value.user
    ensures RetrieveCorrected(s, requester, username).Success? ==>
      var listed := RetrieveCorrected(s, requester, username).value.circles;
      && (s.circles[c] in listed <==>
          exists k :: 0 <= k < |s.memberships| && IsActiveMembership(s.memberships[k], requester, c))
      && multiset(listed)[s.circles[c]] <= 1
  {
    RetrieveCirclesExact(s, requester, c);
  }

  /** One active user "u" whose only membership, in circle 0, has been deactivated. */
  function LeftStore(): (s: Store)
    ensures Valid(s)
    ensures |s.users| == 1 && |s.circles| == 1 && |s.memberships| == 1
    ensures s.users[0].username == "u" && IsActiveClient(s.users[0])
    ensures s.memberships[0].user == 0 && s.memberships[0].circle == 0 && !s.memberships[0].isActive
  {
    Store([User(0, "u", true, true)], [Profile(0, 0, 0)], [Circle(0, "c", "c", "a", 0, 0, false, true, false, 0)],
          [Membership(0, 0, None, false, false, 10, 0, 0)], [], [])
  }

  /**
   * The as-written list goes wrong on that store: it still lists the circle,
   * which the corrected list does not, and `retrieve` returns it to the caller.
   */
  lemma AsWrittenListsLeftCircle()
    ensures var s := LeftStore();
      && RetrieveCirclesAsWritten(s, 0) == [s.circles[0]]
      && RetrieveCircles(s, 0) == []
      && Retrieve(s, 0, "u") == Success(UserDetail(s.users[0], [s.circles[0]]))
      && RetrieveCorrected(s, 0, "u") == Success(UserDetail(s.users[0], []))
  {
    var s := LeftStore();
    var m := s.memberships[0];
    assert s.memberships == [m];
    RowsOfCons(s.memberships, 0);
    ActiveRowsOfCons(s.memberships, 0);
    assert RowsOf(s.memberships, 0) == [m];
    assert ActiveRowsOf(s.memberships, 0) == [];
    assert CirclesOf(s, [m]) == [s.circles[0]];
    assert GetUser(s, "u") == Some(0);
  }

  /** One user who left circle 0 and rejoined it: an inactive row followed by an active one. */
  function RejoinedStore(): (s: Store)
    ensures Valid(s)
    ensures |s.users| == 1 && |s.circles| == 1 && |s.memberships| == 2
    ensures s.memberships[0].circle == s.memberships[1].circle == 0 && !s.memberships[0].isActive
  {
    Store([User(0, "u", true, true)], [Profile(0, 0, 0)], [Circle(0, "c", "c", "a", 0, 0, false, true, false, 0)],
          [Membership(0, 0, None, false, false, 10, 0, 0), Membership(0, 0, None, false, true, 10, 0, 0)], [], [])
  }

  /** The as-written list shows the rejoined circle twice. */
  lemma AsWrittenRepeatsRejoinedCircle()
    ensures var s := RejoinedStore(); RetrieveCirclesAsWritten(s, 0) == [s.circles[0], s.circles[0]]
  {
    var s := RejoinedStore();
    var circle := s.circles[0];
    var ms := s.memberships;
    RowsOfCons(ms, 0);
    RowsOfCons(ms[1..], 0);
    assert RowsOf(ms, 0) == ms;
    assert CirclesOf(s, ms) == [circle, circle];
    assert Circles.SortCircles([circle]) == [circle];
    assert [circle, circle][1..] == [circle];
    assert Circles.SortCircles([circle, circle]) == Circles.Insert(circle, [circle]) == [circle, circle];
  }

  /** The corrected list shows it once. */
  lemma CorrectedListsRejoinedCircleOnce()
    ensures var s := RejoinedStore(); RetrieveCircles(s, 0) == [s.circles[0]]
  {
    var s := RejoinedStore();
    var ms := s.memberships;
    ActiveRowsOfCons(ms, 0);
    ActiveRowsOfCons(ms[1..], 0);
    assert ActiveRowsOf(ms, 0) == [ms[1]];
    assert CirclesOf(s, [ms[1]]) == [s.circles[0]];
  }
}

=== FILE: wrappers.dfy ===
/** Failure-carrying result types shared by every part of the model. */
module Wrappers {

  /** An optional value: the ORM's "row or nothing". */
  datatype Option<+T> = None | Some(value: T) {

    /** The wrapped value, or `default` when there is none. */
    function GetOr(default: T): T {
      match this
      case Some(v) => v
      case None => default
    }
  }

  /** A request outcome: the value the handler produces, or the error it raises. */
  datatype Result<+R, +E> = Success(value: R) | Failure(error: E) {

    predicate IsFailure() {
      Failure?
    }

    function PropagateFailure<U>(): Result<U, E>
      requires Failure?
    {
      Failure(error)
    }

    function Extract(): R
      requires Success?
    {
      value
    }
  }
}
